=== FILE: README.md ===
# Pedestrian-interaction study: a Dafny model of its decision logic

The study application is a Unity VR scene with a companion Python log analysis. Almost all of the application is engine glue. This project models the parts that make decisions, one Dafny module per source file:

- **Two eye-tracking accuracy tests.**
  - `AccuracyTest` models `Assets/EyeTrackingAccuracyTest.cs`. It places the targets on every start, shuffles the visit order per session, and keeps every hit within 20 m, the first one included. It writes two raw rows per hit frame.
  - `FixedOrderAccuracyTest` models `Assets/AccuracyTest/EyeTrackingAccuracyTest.cs`. It shuffles once in `Awake`, so every session uses that order. The first hit of a dwell window is the "initial hit" and is never a sample. Later hits within 0.5 m are samples.
  - Both variants emit exactly one summary row per target, and both reject a mean error past the radius as "no data".
  - Shared pieces:
    - `GazeSampling` holds the per-frame ray observations, the distance filter and the shuffled order.
    - `Geometry` holds vectors over `real` and the mean-within-radius theorem.
- **Target layout** (`TargetLayout`, `Assets/TargetArranger.cs`): one centre target plus a ring of eight at azimuths `i * 45`. Nothing is placed with fewer than nine slots.
- **Walking entity** (`WalkingPath`, `Assets/Walking_Path.cs`): a per-frame state machine. It follows waypoints on path A or B and swaps paths after a gaze dwell. It pauses on contact with the player and resumes once the player is farther than `resumeDistance`.
- **Eye-ray hover bookkeeping** (`EyeRay`, `Assets/Eye_Tracking_Ray.cs`): the list of tracked interactables and their hovered flags, updated on every frame's hit or miss.
- **Proximity haptics** (`ProximityHaptics`, `Assets/Intensity_based_on_Distance.cs`): clamped interpolation from distance to a pulse interval and an intensity, plus a timer that fires a pulse and resets.
- **Gaze-log analysis** (`Labels` and `GazeAnalysis`, `Assets/Logs/gaze_analysis.py`): `normalize_label`, the `target_angles` table, and the per-row loop that skips, matches and shifts the gaze samples.

How engine and library services are represented:

- Engine services become inputs:
  - a dwell window is the sequence of per-frame ray results (`Tick`);
  - a frame of the walking entity is a `Frame` of gaze result, `deltaTime` and player position;
  - the ray hit of the eye ray is a `Sight`.
- `Random.value` shuffling is an `order` argument, required to be a permutation of the target indices.
- Square roots and vector angles are fields of a `Math` record, and degree sine and cosine are fields of a `Trig` record.
  - Properties that need them assume `LawfulMath` (`sqrt(x) >= 0` and `sqrt(x)^2 == x` for `x >= 0`) or `Pythagorean` (`sin^2 + cos^2 == 1`).
  - Distance tests (`d <= radius`) are stated on squared distances. `Geometry.SqrtAtMost` shows this is the same test under `LawfulMath`.
- `difflib.get_close_matches(..., n=1, cutoff=0.75)` is an arbitrary function `Matcher` from a label to an optional key.
- Unity's `Mathf` helpers are modelled exactly over reals:
  - `Clamp` (integer): the `lo` branch is tested first, so `Clamp(v, 0, -1)` is `-1` for any `v >= 0`;
  - `Clamp01`, `InverseLerp`, `Lerp`; the last two are written with a non-negative gap and a positive divisor, and `InverseLerpFormula` and `LerpFormula` show they equal Unity's formulas;
  - `RoundToInt`, which rounds halves to even;
  - `MoveTowards`.

The two accuracy-test variants differ in more than their parameters:

- the first hit is a sample in one variant and never one in the other;
- the order is shuffled per session in one and once in `Awake` in the other;
- only the first variant re-places the targets and writes raw rows.

The model follows the code in each of these.

## Model

| member | source | states |
|---|---|---|
| Geometry.MeanPermutation | Assets/EyeTrackingAccuracyTest.cs:166-168 | the mean of a non-empty list of points does not depend on their order: any rearrangement has the same length and the same mean |
| Geometry.SumPermutation | Assets/EyeTrackingAccuracyTest.cs:166 | two lists holding the same points, repeats included, have the same vector sum |
| Geometry.MeanWithin | Assets/EyeTrackingAccuracyTest.cs:166-168 | the mean of points that each lie within squared distance `r2` of a centre also lies within `r2` of it |
| Geometry.SqrtAtMost | Assets/EyeTrackingAccuracyTest.cs:125-126 | with a lawful square root, `sqrt(q) <= r` exactly when `q <= r * r`, so distance tests against a radius agree with squared-distance tests |
| Geometry.DeviationBound | Assets/EyeTrackingAccuracyTest.cs:166 | the summed offsets of `n` points, each within `r2` of the centre, have squared length at most `n * n * r2` |
| Geometry.DeviationGrow | Assets/EyeTrackingAccuracyTest.cs:166 | adding one more point within `r2` of the centre to `n - 1` points within the bound keeps the summed offsets within `n * n * r2` |
| GazeSampling.HitTicks | Assets/EyeTrackingAccuracyTest.cs:123 | every selected frame is a hit, and every hit frame is selected |
| GazeSampling.Kept | Assets/EyeTrackingAccuracyTest.cs:125-126 | a point is kept exactly when it is one of the hits and lies within the radius; all kept points are within it |
| GazeSampling.HitsSnoc | Assets/EyeTrackingAccuracyTest.cs:121-123 | one more frame appends its hit, if it is one, at the end of the hits and adds nothing otherwise, so hits stay in frame order with repeats |
| GazeSampling.KeptSnoc | Assets/EyeTrackingAccuracyTest.cs:125-126 | one more point is appended at the end of the kept points exactly when it lies within the radius, as `samples.Add` does |
| GazeSampling.HitTicksCount | Assets/EyeTrackingAccuracyTest.cs:123 | each hit frame occurs among the hits exactly as often as among the frames |
| GazeSampling.KeptCount | Assets/EyeTrackingAccuracyTest.cs:125-126 | a point within the radius is kept exactly as often as it occurs, repeats included, and a point outside it never |
| GazeSampling.RadiusPercent | Assets/EyeTrackingAccuracyTest.cs:176 | the error as a percentage of the radius: `err / radius * 100` up to the radius, exactly 100 from the radius on, and never negative for a non-negative error; the second test uses it at Assets/AccuracyTest/EyeTrackingAccuracyTest.cs:129-131 |
| GazeSampling.HitTicksNonEmpty | Assets/EyeTrackingAccuracyTest.cs:127 | there is some hit exactly when some frame's ray hit |
| GazeSampling.PermutationVisitsEachOnce | Assets/EyeTrackingAccuracyTest.cs:105-107 | a shuffled order names every target exactly once and never repeats one |
| TargetLayout.AzimuthsEvenlySpaced | Assets/TargetArranger.cs:36-38 | the eight azimuths are 45 degrees apart, strictly increasing, from 0 to 315 |
| TargetLayout.PlaceRing | Assets/TargetArranger.cs:36-49 | ring slot `i + 1` receives ring position `i` wherever the array is long enough; slot 0 and slots past 8 keep their positions |
| TargetLayout.Arrange | Assets/TargetArranger.cs:16-49 | with fewer than nine slots nothing is placed and nothing moves; otherwise slot 0 is the centre and slots 1-8 all get their ring positions, so the loop's `break` never fires; slots from 9 on are untouched |
| TargetLayout.RadialDirection | Assets/TargetArranger.cs:39-40 | with an orthonormal camera basis, the radial direction `right cos + up sin` is a unit vector perpendicular to forward |
| TargetLayout.CentreAtRadius | Assets/TargetArranger.cs:29 | the centre target is `radius` from the camera |
| TargetLayout.RingAtRadius | Assets/TargetArranger.cs:33-42 | every ring target is `radius` from the camera, whatever the tilt |
| TargetLayout.PlacedAtRadius | Assets/TargetArranger.cs:16-48 | all nine placed targets lie on the sphere of radius `radius` around the camera |
| AccuracyTest.BlankIfUndefined | Assets/EyeTrackingAccuracyTest.cs:148-149 | an angle field of the first raw row is blank exactly when the angle is undefined, and otherwise holds it |
| AccuracyTest.NaNIfUndefined | Assets/EyeTrackingAccuracyTest.cs:152-153 | an angle field of the second raw row is `NaN` exactly when the angle is undefined, and otherwise holds it |
| AccuracyTest.RawRows | Assets/EyeTrackingAccuracyTest.cs:139-153 | a dwell window writes exactly two raw rows per hit frame, in frame order: the blank-field row, then the `NaN` row |
| AccuracyTest.SampleDwell | Assets/EyeTrackingAccuracyTest.cs:118-156 | the samples are the hits within 20 m, the first hit included; `gotFirstHit` holds exactly when some frame hit; the raw rows are two per hit |
| AccuracyTest.Summarise | Assets/EyeTrackingAccuracyTest.cs:159-183 | a row is scored exactly when there was a hit, there are samples and the distance from their mean to the centre is within 20 m; a scored row reports that distance as its centre error, its percentage of the radius, the eye-to-target distance, the angle between the target and mean directions, the sample count and the expected frames; with lawful math and samples inside the radius the discard branch is dead |
| AccuracyTest.ScoredIffSampled | Assets/EyeTrackingAccuracyTest.cs:123-183 | a target's row is scored exactly when some frame hit within 20 m of it, and the window writes twice as many raw rows as hit frames |
| AccuracyTest.Init | Assets/EyeTrackingAccuracyTest.cs:26 | the component starts idle over the given targets with empty summary and raw logs, the session invariant holding |
| AccuracyTest.StartTest | Assets/EyeTrackingAccuracyTest.cs:57-101 | ignored while a session runs; otherwise the targets take the positions `Arrange` gives their current positions (all unchanged with fewer than nine), keep their names, and the session starts over the given order, leaving the logs alone |
| AccuracyTest.CompleteTarget | Assets/EyeTrackingAccuracyTest.cs:107-185 | finishing a target appends exactly its summary row and raw rows and moves to the next; the flag clears after the last target |
| AccuracyTest.RunAppendsInOrder | Assets/EyeTrackingAccuracyTest.cs:107-185 | running out the pending targets appends exactly their summary rows to the summary log and exactly their raw rows to the raw log, both in visit order, and clears the flag |
| AccuracyTest.SessionRowsAt | Assets/EyeTrackingAccuracyTest.cs:107-183 | the `k`-th summary row of a session is the summary of the `k`-th target in the visit order |
| AccuracyTest.SessionWritesOneRowPerTarget | Assets/EyeTrackingAccuracyTest.cs:57-185 | a session started from idle writes one summary row per target in the shuffled order, then the raw rows of each target in the same order, and ends idle |
| FixedOrderAccuracyTest.SampleDwell | Assets/AccuracyTest/EyeTrackingAccuracyTest.cs:81-104 | the initial hit exists exactly when some frame hit and is the first hit; the samples are the later hits within 0.5 m, and none without an initial hit |
| FixedOrderAccuracyTest.WindowSnoc | Assets/AccuracyTest/EyeTrackingAccuracyTest.cs:85-99 | one more frame changes the window only on a hit: the first hit becomes the initial hit, a later hit within 0.5 m is appended to the samples, any other hit is dropped |
| FixedOrderAccuracyTest.WindowCounts | Assets/AccuracyTest/EyeTrackingAccuracyTest.cs:90-113 | there are at most one fewer samples than hit frames, samples imply an initial hit, and all samples are within the radius |
| FixedOrderAccuracyTest.Summarise | Assets/AccuracyTest/EyeTrackingAccuracyTest.cs:108-144 | every outcome carries the expected frames; it is scored exactly when there are an initial hit, samples, and a sample mean within 0.5 m of the centre; a scored one reports that mean, its distance to the centre, the eye-to-target distance, the sample count, the initial hit, and the percentages of the radius of the initial hit's and the mean's errors |
| FixedOrderAccuracyTest.ScoreTarget | Assets/AccuracyTest/EyeTrackingAccuracyTest.cs:109-111 | the row names the target and carries its position and scale |
| FixedOrderAccuracyTest.ScoredIffLaterHitNear | Assets/AccuracyTest/EyeTrackingAccuracyTest.cs:90-144 | a target is scored exactly when some hit after the first lands within 0.5 m of it |
| FixedOrderAccuracyTest.Awake | Assets/AccuracyTest/EyeTrackingAccuracyTest.cs:42-52 | the visit order is fixed here over the given targets, which are kept as they are, and the component starts idle with an empty log |
| FixedOrderAccuracyTest.StartTest | Assets/AccuracyTest/EyeTrackingAccuracyTest.cs:55-63 | ignored while a session runs; otherwise visits the targets in the order fixed by `Awake`, keeping targets, order and log |
| FixedOrderAccuracyTest.CompleteTarget | Assets/AccuracyTest/EyeTrackingAccuracyTest.cs:67-147 | finishing a target logs exactly its row and moves to the next; the flag clears after the last target |
| FixedOrderAccuracyTest.RunAppendsInOrder | Assets/AccuracyTest/EyeTrackingAccuracyTest.cs:65-148 | running out the pending targets logs exactly their rows in order and clears the flag |
| FixedOrderAccuracyTest.EverySessionSameOrder | Assets/AccuracyTest/EyeTrackingAccuracyTest.cs:51-148 | every session, first or later, logs one row per target in the same order, fixed by `Awake` |
| WalkingPath.Start | Assets/Walking_Path.cs:11-32 | the entity starts at the given position on path A at waypoint 0, moving, with the gaze timer at 0, no player contact, and the invariant holding |
| WalkingPath.Clamp | Assets/Walking_Path.cs:146 | Unity's integer clamp: in range for an ordered range, unchanged inside it, and `lo` below it |
| WalkingPath.SwapPaths | Assets/Walking_Path.cs:142-148 | toggles the path and holds the newly selected one; the waypoint index is kept when it fits, becomes the new path's last waypoint when past its end, becomes 0 when negative, and is -1 on an empty path when it was non-negative; nothing else changes and the invariant holds |
| WalkingPath.GazeStep | Assets/Walking_Path.cs:56-88 | the path swaps exactly when the ray is on the entity and the timer reaches the threshold; a miss or another object resets the timer; no camera leaves it; a swap is exactly `SwapPaths` with the timer restarted, so the waypoint index is kept when it fits the new path and clamped into it otherwise |
| WalkingPath.Resume | Assets/Walking_Path.cs:91-100 | movement resumes only from contact with a player found farther than `resumeDistance`, and always then |
| WalkingPath.MoveTowards | Assets/Walking_Path.cs:113 | computes only; its properties are stated by `MoveTowardsApproaches` and `MoveTowardsFraction` |
| WalkingPath.MoveTowardsApproaches | Assets/Walking_Path.cs:113 | a non-negative step never moves away from the waypoint; it lands on it when within reach and otherwise moves exactly `step` |
| WalkingPath.MoveTowardsFraction | Assets/Walking_Path.cs:113 | out of reach, a step covers the fraction `step / distance` of the way to the waypoint, the distance being the square root of the squared distance |
| WalkingPath.Walk | Assets/Walking_Path.cs:109-130 | the entity moves to `MoveTowards` of its position towards the current waypoint by `speed * dt`, which for a non-negative step is no farther from it; the index advances, wrapping round, only once within 0.3 of it, and always then on a path of two or more; nothing else changes |
| WalkingPath.Update | Assets/Walking_Path.cs:53-140 | keeps the waypoint index inside a non-empty path and the timer below a positive threshold; swaps exactly on a completed dwell; idles at MoveSpeed 0 without moving when paused or on an empty path; otherwise the frame is exactly `Walk` applied after the gaze and pause checks, so with a non-negative step the entity gets no farther from its waypoint and the index stays or advances by one, wrapping round |
| WalkingPath.OnCollisionEnter | Assets/Walking_Path.cs:150-160 | contact with the player stops the entity and idles its animation; any other collision changes nothing |
| WalkingPath.PausedWhilePlayerNear | Assets/Walking_Path.cs:91-107 | after contact the entity stays put for as long as the player, when found, stays within `resumeDistance` |
| WalkingPath.GazeBrokenResetsTimer | Assets/Walking_Path.cs:75-87 | looking elsewhere or at nothing clears the gaze timer and never swaps paths |
| EyeRay.Unselect | Assets/Eye_Tracking_Ray.cs:77-88 | lowers the hovered flag of exactly the listed interactables and clears the list only when asked |
| EyeRay.LateUpdate | Assets/Eye_Tracking_Ray.cs:43-75 | no eye gaze does nothing; a miss un-hovers every listed interactable and empties the list; a hit un-hovers them and then lists and hovers the one hit, which is afterwards the only hovered listed one; a non-interactable hit keeps the list; flags of unlisted objects are untouched |
| EyeRay.RepeatedHitListsTwice | Assets/Eye_Tracking_Ray.cs:62-66 | two hits on the same interactable list it twice |
| ProximityHaptics.Clamp01 | Assets/Intensity_based_on_Distance.cs:27 | the result lies in [0, 1] and is the input when the input is already there |
| ProximityHaptics.Clamp01Ends | Assets/Intensity_based_on_Distance.cs:27 | below 0 the clamp gives 0, above 1 it gives 1 |
| ProximityHaptics.Ratio | Assets/Intensity_based_on_Distance.cs:27 | the quotient `q` of `n` by a positive `d` satisfies `q * d == n`; it is non-positive for non-positive `n`, in [0, 1] for `n` in [0, d], and at least 1 from `d` on |
| ProximityHaptics.RatioMonotone | Assets/Intensity_based_on_Distance.cs:27 | a larger numerator over the same positive divisor gives no smaller quotient |
| ProximityHaptics.InverseLerp | Assets/Intensity_based_on_Distance.cs:27 | the result lies in [0, 1]; when `a < b` it is 0 at or below `a`, 1 at or above `b`, and between them the `t` with `t * (b - a) == v - a`; when `b < a` it is 1 at or below `b`; it is 0 when `a == b` |
| ProximityHaptics.InverseLerpFormula | Assets/Intensity_based_on_Distance.cs:27 | `InverseLerp` is Unity's `Clamp01((v - a) / (b - a))` for `a != b` and 0 otherwise |
| ProximityHaptics.Portion | Assets/Intensity_based_on_Distance.cs:28 | a fraction in [0, 1] of a non-negative gap is at most the gap, none of it at 0 and all of it at 1 |
| ProximityHaptics.PortionMonotone | Assets/Intensity_based_on_Distance.cs:28 | a larger fraction takes no less of the gap |
| ProximityHaptics.Lerp | Assets/Intensity_based_on_Distance.cs:28 | the result lies between the two ends and equals `a` for `t <= 0` and `b` for `t >= 1` |
| ProximityHaptics.LerpFormula | Assets/Intensity_based_on_Distance.cs:28 | `Lerp` is Unity's formula `a + (b - a) * t` with `t` clamped to [0, 1] |
| ProximityHaptics.RoundToInt | Assets/Intensity_based_on_Distance.cs:34 | the result is within 0.5 of the input and is the input when that is an integer |
| ProximityHaptics.RoundHalfToEven | Assets/Intensity_based_on_Distance.cs:34 | an input exactly halfway between two integers rounds to the even one of the two |
| ProximityHaptics.RoundMonotone | Assets/Intensity_based_on_Distance.cs:34 | rounding never reverses an order |
| ProximityHaptics.Init | Assets/Intensity_based_on_Distance.cs:14-15 | the timer starts at 0 and the interval at 1 s |
| ProximityHaptics.Proximity | Assets/Intensity_based_on_Distance.cs:27 | proximity lies in [0, 1]; when `minDistance < maxDistance` it is 1 at or inside `minDistance`, 0 at or beyond `maxDistance`, and between them falls linearly: `(1 - p) * (maxDistance - minDistance) == distance - minDistance` |
| ProximityHaptics.Interval | Assets/Intensity_based_on_Distance.cs:28 | the pulse interval is `maxInterval + (minInterval - maxInterval) * Clamp01(proximity)`: `maxInterval` at proximity 0, `minInterval` at 1, and always between the two |
| ProximityHaptics.Intensity | Assets/Intensity_based_on_Distance.cs:34 | the intensity is an integer in [10, 100]: 10 at proximity 0 or below, 100 at 1 or above, and in between within 0.5 of `10 + 90 * proximity` |
| ProximityHaptics.Update | Assets/Intensity_based_on_Distance.cs:17-40 | beyond `maxDistance` the timer restarts and nothing plays; a pulse plays exactly when in range and the advanced timer reaches the interval, then the timer is 0; a pulse is a 100 ms heartbeat of intensity in [10, 100] |
| ProximityHaptics.InverseLerpMonotone | Assets/Intensity_based_on_Distance.cs:27 | `InverseLerp` does not decrease in its value |
| ProximityHaptics.LerpMonotone | Assets/Intensity_based_on_Distance.cs:28 | `Lerp` moves towards `b` as `t` grows |
| ProximityHaptics.CloserPulsesFasterAndStronger | Assets/Intensity_based_on_Distance.cs:27-34 | with ordered distance and interval bounds, a nearer enemy gets an interval no longer and an intensity no weaker than a farther one |
| ProximityHaptics.ReversedBoundsFlat | Assets/Intensity_based_on_Distance.cs:21-27 | with `maxDistance < minDistance`, every distance within `maxDistance` has proximity 0 |
| ProximityHaptics.InRangeCloserPulsesFasterAndStronger | Assets/Intensity_based_on_Distance.cs:21-34 | for any distance bounds, ordered or not, and ordered interval bounds, of two distances within `maxDistance` the nearer gets an interval no longer and an intensity no weaker; with reversed distance bounds both have proximity 0 |
| Labels.LowerChar | Assets/Logs/gaze_analysis.py:18 | a capital becomes the letter 32 code points on, its lower-case form; any other character is unchanged |
| Labels.FilterAscii | Assets/Logs/gaze_analysis.py:15 | the result is all ASCII and no longer than the input; a one-character input is kept exactly when it is ASCII |
| Labels.FilterAsciiAppend | Assets/Logs/gaze_analysis.py:15 | filtering a concatenation filters each part and concatenates the results, so exactly the ASCII characters survive, in order |
| Labels.RemoveChar | Assets/Logs/gaze_analysis.py:16 | the character no longer occurs, text without it is unchanged, and a one-character input is dropped exactly when it is that character |
| Labels.RemoveCharAppend | Assets/Logs/gaze_analysis.py:16 | removal from a concatenation removes from each part and concatenates the results, so every other character survives, in order |
| Labels.Collapse | Assets/Logs/gaze_analysis.py:17 | every whitespace character left is a plain space and no two spaces are adjacent; the result is empty exactly when the input is, and starts with whitespace exactly when the input does |
| Labels.CollapseIsSqueeze | Assets/Logs/gaze_analysis.py:17 | collapsing equals turning every whitespace character into a space and then dropping each space that follows another, so all other characters survive in order |
| Labels.CollapseKeepsAscii | Assets/Logs/gaze_analysis.py:15-17 | collapsing ASCII text keeps it ASCII |
| Labels.CollapseFixesCollapsed | Assets/Logs/gaze_analysis.py:17 | text already made of single plain spaces is left unchanged |
| Labels.Strip | Assets/Logs/gaze_analysis.py:18 | the result has no whitespace at either end, is no longer than the input, and is the input when that is already trimmed |
| Labels.StripIsSlice | Assets/Logs/gaze_analysis.py:18 | what stripping keeps is one contiguous piece of the input, and everything cut off before and after it is whitespace |
| Labels.Lower | Assets/Logs/gaze_analysis.py:18 | lower-casing keeps the length and the whitespace positions, turns each capital into its lower-case letter and leaves every other character as it is |
| Labels.ZeroWidthRemovalIsNoOp | Assets/Logs/gaze_analysis.py:15-16 | after the ASCII filter the zero-width-space removal never changes anything |
| Labels.Normalize | Assets/Logs/gaze_analysis.py:13-19 | computes only; its properties are stated by `NormalizeIsNormal`, `NormalIsFixedPoint` and `NormalizeIdempotent` |
| Labels.NormalizeIsNormal | Assets/Logs/gaze_analysis.py:13-19 | every normalised label is ASCII, has no capitals, single plain spaces between words and none at either end |
| Labels.NormalIsFixedPoint | Assets/Logs/gaze_analysis.py:13-19 | a label of that shape is its own normalisation |
| Labels.LettersAndSpacesNormal | Assets/Logs/gaze_analysis.py:13-19 | lower-case letters with single spaces between them and none at either end form a normal label |
| Labels.NormalLabelsFixed | Assets/Logs/gaze_analysis.py:13-19 | every label of a set of normal labels is its own normalisation |
| Labels.NormalizeIdempotent | Assets/Logs/gaze_analysis.py:13-19 | normalising twice is normalising once, and a label is its own normalisation exactly when it is normal |
| GazeAnalysis.TargetsOnRing | Assets/Logs/gaze_analysis.py:22-32 | the table has the nine keys, the centre at (0, 0), and every other target 35 degrees from it |
| GazeAnalysis.KeysAreNormal | Assets/Logs/gaze_analysis.py:22-32 | every table key is lower-case words separated by single spaces, so it is normal |
| GazeAnalysis.KeysAreFixedPoints | Assets/Logs/gaze_analysis.py:13-32 | every table key is its own normalisation |
| GazeAnalysis.Corrected | Assets/Logs/gaze_analysis.py:76-89 | a row missing both angles gets no label; a row whose normalised label is a key gets that key; any other row gets the fuzzy match of its normalised label, which may be none |
| GazeAnalysis.MatchedIffLabelled | Assets/Logs/gaze_analysis.py:86-93 | when the matcher proposes only keys, a row contributes a point exactly when it gets a label |
| GazeAnalysis.Shift | Assets/Logs/gaze_analysis.py:93-98 | a shifted point is the target's offset plus the row's yaw and pitch, a missing angle counting as 0 |
| GazeAnalysis.ShiftedCount | Assets/Logs/gaze_analysis.py:91-98 | there are exactly as many shifted points as matched rows |
| GazeAnalysis.CorrectedLabelsAt | Assets/Logs/gaze_analysis.py:71-91 | the label list holds, at each row's position, that row's corrected label |
| GazeAnalysis.CorrectionKeys | Assets/Logs/gaze_analysis.py:83-89 | `corrections` is keyed by exactly the raw labels of the rows fuzzy-matched to a different, non-empty label |
| GazeAnalysis.CorrectionValues | Assets/Logs/gaze_analysis.py:83-89 | every entry maps a raw label to the non-empty fuzzy match of its normalised form |
| GazeAnalysis.CorrectionsSpec | Assets/Logs/gaze_analysis.py:83-89 | `corrections` has exactly the raw labels of the rows that were fuzzy-matched to a different, non-empty key, each mapped to the fuzzy match of its normalised form |
| GazeAnalysis.ClassifyRow | Assets/Logs/gaze_analysis.py:72-98 | one pass of the loop body appends the row's corrected label (none for a skipped row), appends its shifted point exactly when its label is a target, and writes a correction under the raw label exactly when the row is fuzzy-matched to a different, non-empty label |
| GazeAnalysis.Classify | Assets/Logs/gaze_analysis.py:71-98 | the loop leaves one corrected label per row, one shifted point per matched row in row order, and `corrections` as above |
| GazeAnalysis.RunRows | Assets/Logs/gaze_analysis.py:71-98 | the loop over all rows leaves exactly the corrected-label list, the shifted points of the matched rows and the corrections map that the per-row reference definitions give for the whole file |
| GazeAnalysis.ExactLabelKept | Assets/Logs/gaze_analysis.py:83-84 | a row with an angle whose label normalises to a key, such as "Left Top", gets that key whatever the fuzzy matcher proposes, and is never recorded as a correction |

## Left out

- File I/O, the CSV header and session-separator lines, timestamps and `F1`/`F2`/`F4` formatting: rows are datatypes, not text.
- Engine time and physics: `Physics.Raycast`, `Time.time`, `WaitForSeconds` and the coroutine's 2-second pre-cue wait. A dwell window is its sequence of per-frame ray results, and the coroutine is a state machine (`StartTest`, then `CompleteTarget` per target).
- `Highlight`, `HighlightColor`, the material duplication in `Awake`, `LookAt`, the `LineRenderer` set-up and colours, `Debug.Log`/`DrawRay`: presentation only.
- The yaw/pitch `SignedAngle` computation and `Vector3.Angle`: yaw and pitch arrive as inputs on each hit, and the angle is an abstract `Math.angle`.
- `hitRate`/`gazeHitRate` division and `Mathf.RoundToInt(dwellTime / Time.deltaTime)`: a row carries the sample count and the expected frame count, which is an input.
- IEEE single-precision arithmetic: all quantities are exact reals.
- The distribution of `Random.value` shuffling: only the fact that the order is a permutation of the targets is modelled.
- The rotation towards the waypoint (`LookRotation`, `Slerp`) and the animator's null check: the animator is assumed present, so `MoveSpeed` is always written.
- Waypoint transforms are fixed positions: nothing else moves them during the walk.
- `Start`'s player lookup is a per-frame optional player position.
- Null target arrays: the target arrays are assumed non-null. In the first accuracy test `PositionTargets` returns early on a null array, but the shuffle then throws after `testStarted` is set, leaving the component started for good; that path is not modelled.
- `difflib.get_close_matches`: an arbitrary matcher.
- pandas parsing, the summary-file average offset, the printed reports and the plots: `NaN` yaw/pitch become `None`, and the `str(label)` conversion of a non-string label is not modelled.
- The Bhaptics `Play` call: a pulse is returned as data.
- The other engine, editor and SDK scripts are not part of this model.
- AccuracyTest.StartTest: with zero targets the session starts and ends in the same call, so the flag stays clear, matching the coroutine finishing before `StartTest` returns.
- WalkingPath.MoveTowards: needs a lawful square root; its properties are stated in `MoveTowardsApproaches` for a non-negative step only.
- ProximityHaptics.CloserPulsesFasterAndStronger: also needs `minDistance <= maxDistance`, because with reversed distance bounds `InverseLerp` runs backwards between `maxDistance` and `minDistance`, where no pulse plays; `InRangeCloserPulsesFasterAndStronger` covers every distance that does pulse, for either order of the bounds. Both need `minInterval <= maxInterval`: with reversed interval bounds a nearer enemy does pulse more slowly.
- Geometry.SqrtAtMost: distance tests are stated on squared distances; they coincide with the source's tests only under `LawfulMath`.

=== FILE: accuracy_test.dfy ===
/**
 * The first eye-tracking accuracy test (`Assets/EyeTrackingAccuracyTest.cs`).
 * `StartTest` places the targets, then a session visits every target once
 * in a freshly shuffled order. For each target it samples the eye ray for a
 * dwell window, keeping every hit within `TargetRadius` of the target (the
 * first hit included), and writes one summary row and two raw rows per hit.
 */
module AccuracyTest {
  import opened Wrappers
  import opened Geometry
  import opened GazeSampling
  import opened TargetLayout

  /** `targetRadius`, the acceptance radius in metres. */
  const TargetRadius: real := 20.0
  const TargetRadiusSq: real := TargetRadius * TargetRadius

  /** One line of the summary log, without its timestamp. */
  datatype SummaryRow =
    /** `…,name,null,null,0.00,null,null` */
    | NoData(name: string)
    /** `…,name,err,eyeDist,hitRate,normErr,ang`; the hit rate is `validFrames / expectedFrames`. */
    | Scored(name: string, centerError: real, eyeToTarget: real, validFrames: nat,
             expectedFrames: int, normalizedError: real, angleOffset: real)

  /** A yaw or pitch field of a raw row. */
  datatype Field = Blank | NaN | Degrees(value: real)

  /** One line of the raw sample log, without its timestamp. */
  datatype RawRow = RawRow(name: string, yaw: Field, pitch: Field)

  /** An undefined angle is written as an empty field by the first row... */
  function BlankIfUndefined(a: Option<real>): (f: Field)
    ensures f.Blank? <==> a.None?
    ensures a.Some? ==> f == Degrees(a.value)
  {
    if a.None? then Blank else Degrees(a.value)
  }

  /** ...and as `NaN` (what `{yaw:F2}` prints for NaN) by the second. */
  function NaNIfUndefined(a: Option<real>): (f: Field)
    ensures f.NaN? <==> a.None?
    ensures a.Some? ==> f == Degrees(a.value)
  {
    if a.None? then NaN else Degrees(a.value)
  }

  /** The two raw rows one hit frame appends. */
  function RawPair(name: string, t: Tick): seq<RawRow>
    requires t.Hit?
  {
    [RawRow(name, BlankIfUndefined(t.yaw), BlankIfUndefined(t.pitch)),
     RawRow(name, NaNIfUndefined(t.yaw), NaNIfUndefined(t.pitch))]
  }

  /** The raw rows of a whole dwell window: two per hit frame, none per miss. */
  function RawRows(name: string, ticks: seq<Tick>): (r: seq<RawRow>)
    ensures |r| == 2 * |HitTicks(ticks)|
    ensures forall k :: 0 <= k < |HitTicks(ticks)| ==>
      r[2 * k] == RawPair(name, HitTicks(ticks)[k])[0] && r[2 * k + 1] == RawPair(name, HitTicks(ticks)[k])[1]
    decreases |ticks|
  {
    if |ticks| == 0 then []
    else
      var init := ticks[..|ticks| - 1];
      var last := ticks[|ticks| - 1];
      HitsSnoc(init, last);
      assert ticks == init + [last];
      RawRows(name, init) + (if last.Hit? then RawPair(name, last) else [])
  }

  /**
   * The sampling loop of one dwell window: every hit within the acceptance
   * radius becomes a sample, the first hit sets `gotFirstHit`, and every hit
   * appends its two raw rows.
   */
  method SampleDwell(name: string, ticks: seq<Tick>, center: Vec3)
    returns (samples: seq<Vec3>, gotFirstHit: bool, raw: seq<RawRow>)
    ensures samples == Kept(Hits(ticks), center, TargetRadiusSq)
    ensures gotFirstHit <==> exists i :: 0 <= i < |ticks| && ticks[i].Hit?
    ensures raw == RawRows(name, ticks)
  {
    samples, gotFirstHit, raw := [], false, [];
    var i := 0;
    while i < |ticks|
      invariant 0 <= i <= |ticks|
      invariant samples == Kept(Hits(ticks[..i]), center, TargetRadiusSq)
      invariant gotFirstHit <==> |HitTicks(ticks[..i])| > 0
      invariant raw == RawRows(name, ticks[..i])
    {
      assert ticks[..i + 1] == ticks[..i] + [ticks[i]];
      HitsSnoc(ticks[..i], ticks[i]);
      KeptSnoc(Hits(ticks[..i]), if ticks[i].Hit? then ticks[i].point else center, center, TargetRadiusSq);
      if ticks[i].Hit? {
        var point := ticks[i].point;
        if SqDist(point, center) <= TargetRadiusSq {
          samples := samples + [point];
        }
        if !gotFirstHit {
          gotFirstHit := true;
        }
        raw := raw + RawPair(name, ticks[i]);
      }
      i := i + 1;
    }
    assert ticks[..i] == ticks;
    HitTicksNonEmpty(ticks);
  }

  /**
   * The summary row of one target, from its samples and whether any hit
   * happened. A mean error over the radius is discarded as no data; given
   * samples that all passed the filter, that branch never fires.
   */
  function Summarise(name: string, center: Vec3, samples: seq<Vec3>, gotFirstHit: bool,
                     d: Dwell, m: Math): (row: SummaryRow)
    ensures row.name == name
    ensures row.Scored? ==> gotFirstHit && |samples| > 0
    ensures row.Scored? ==> row.validFrames == |samples| && row.expectedFrames == d.expectedFrames
    ensures row.Scored? <==> gotFirstHit && |samples| > 0 && Distance(m, Mean(samples), center) <= TargetRadius
    ensures row.Scored? ==>
      && row.centerError == Distance(m, Mean(samples), center)
      && row.normalizedError == RadiusPercent(row.centerError, TargetRadius)
      && row.eyeToTarget == Distance(m, d.eye, center)
      && row.angleOffset == m.angle(Sub(center, d.eye), Sub(Mean(samples), d.eye))
    ensures row.Scored? ==> row.centerError <= TargetRadius && row.normalizedError <= 100.0
    ensures row.Scored? && LawfulMath(m) ==> 0.0 <= row.centerError && 0.0 <= row.normalizedError
    ensures LawfulMath(m) && AllWithin(samples, center, TargetRadiusSq) ==>
      (row.Scored? <==> gotFirstHit && |samples| > 0)
  {
    if !gotFirstHit || |samples| == 0 then NoData(name)
    else
      var avg := Mean(samples);
      var err := Distance(m, avg, center);
      if err > TargetRadius then
        assert LawfulMath(m) && AllWithin(samples, center, TargetRadiusSq) ==> false by {
          if LawfulMath(m) && AllWithin(samples, center, TargetRadiusSq) {
            MeanWithin(samples, center, TargetRadiusSq);
            SqNormNonNegative(Sub(avg, center));
            SqrtAtMost(m, SqDist(avg, center), TargetRadius);
          }
        }
        NoData(name)
      else
        var eyeDist := Distance(m, d.eye, center);
        var ang := m.angle(Sub(center, d.eye), Sub(avg, d.eye));
        assert LawfulMath(m) ==> 0.0 <= err by {
          SqNormNonNegative(Sub(avg, center));
        }
        Scored(name, err, eyeDist, |samples|, d.expectedFrames, RadiusPercent(err, TargetRadius), ang)
  }

  /** The summary row and raw rows of one target's dwell window. */
  function ScoreTarget(t: Target, d: Dwell, m: Math): (SummaryRow, seq<RawRow>) {
    var samples := Kept(Hits(d.ticks), t.position, TargetRadiusSq);
    (Summarise(t.name, t.position, samples, |HitTicks(d.ticks)| > 0, d, m), RawRows(t.name, d.ticks))
  }

  /** Scoring a target fills its row only when some hit landed within the radius. */
  lemma ScoredIffSampled(t: Target, d: Dwell, m: Math)
    requires LawfulMath(m)
    ensures ScoreTarget(t, d, m).0.Scored?
        <==> exists i :: 0 <= i < |d.ticks| && d.ticks[i].Hit? && SqDist(d.ticks[i].point, t.position) <= TargetRadiusSq
    ensures |ScoreTarget(t, d, m).1| == 2 * |HitTicks(d.ticks)|
  {
    var hits := Hits(d.ticks);
    var samples := Kept(hits, t.position, TargetRadiusSq);
    var ht := HitTicks(d.ticks);
    if exists i :: 0 <= i < |d.ticks| && d.ticks[i].Hit? && SqDist(d.ticks[i].point, t.position) <= TargetRadiusSq {
      var i :| 0 <= i < |d.ticks| && d.ticks[i].Hit? && SqDist(d.ticks[i].point, t.position) <= TargetRadiusSq;
      var k :| 0 <= k < |ht| && ht[k] == d.ticks[i];
      assert hits[k] == d.ticks[i].point;
      assert d.ticks[i].point in samples;
    }
    if |samples| > 0 {
      var p := samples[0];
      assert p in hits;
      var k :| 0 <= k < |hits| && hits[k] == p;
      assert ht[k] in d.ticks;
      var i :| 0 <= i < |d.ticks| && d.ticks[i] == ht[k];
      assert d.ticks[i].Hit? && SqDist(d.ticks[i].point, t.position) <= TargetRadiusSq;
    }
  }

  // ---------------------------------------------------------------------
  // The session

  /**
   * The test component: the target spheres, `testStarted`, the targets still
   * to visit in this session's order, and the two logs.
   */
  datatype Tester = Tester(targets: seq<Target>, started: bool, pending: seq<nat>,
                           summary: seq<SummaryRow>, raw: seq<RawRow>)

  /** The flag is set exactly while targets remain, and they all exist. */
  ghost predicate Valid(s: Tester) {
    && (s.started <==> |s.pending| > 0)
    && forall i :: 0 <= i < |s.pending| ==> s.pending[i] < |s.targets|
  }

  function Positions(ts: seq<Target>): (ps: seq<Vec3>)
    ensures |ps| == |ts| && forall i :: 0 <= i < |ts| ==> ps[i] == ts[i].position
  {
    seq(|ts|, i requires 0 <= i < |ts| => ts[i].position)
  }

  function WithPositions(ts: seq<Target>, ps: seq<Vec3>): (r: seq<Target>)
    requires |ps| == |ts|
    ensures |r| == |ts|
    ensures forall i :: 0 <= i < |ts| ==> r[i] == ts[i].(position := ps[i])
  {
    seq(|ts|, i requires 0 <= i < |ts| => ts[i].(position := ps[i]))
  }

  /** The initial component: nothing started, empty logs. */
  function Init(targets: seq<Target>): (s: Tester)
    ensures Valid(s) && !s.started
    ensures s.targets == targets && s.summary == [] && s.raw == []
  {
    Tester(targets, false, [], [], [])
  }

  /**
   * `StartTest`: ignored while a session runs. Otherwise it places the
   * targets (which does nothing, not fatally, with fewer than nine), sets the
   * flag and starts the session with `order`, the shuffle `RunTest` draws
   * before its first target. With no targets the session ends at once.
   */
  function StartTest(s: Tester, cam: Camera, p: Placement, trig: Trig, order: seq<nat>): (r: Tester)
    requires Valid(s)
    requires IsPermutation(order, |s.targets|)
    ensures Valid(r)
    ensures s.started ==> r == s
    ensures !s.started ==> r.pending == order && (r.started <==> |s.targets| > 0)
    ensures r.summary == s.summary && r.raw == s.raw
    ensures |r.targets| == |s.targets|
    ensures forall i :: 0 <= i < |s.targets| ==> r.targets[i].name == s.targets[i].name
    ensures |s.targets| < SlotsNeeded ==> r.targets == s.targets
    ensures !s.started ==> Positions(r.targets) == Arrange(Positions(s.targets), cam, p, trig).positions
  {
    if s.started then s
    else
      PermutationVisitsEachOnce(order, |s.targets|);
      var arranged := Arrange(Positions(s.targets), cam, p, trig);
      var targets := WithPositions(s.targets, arranged.positions);
      assert |s.targets| < SlotsNeeded ==> targets == s.targets;
      Tester(targets, |order| > 0, order, s.summary, s.raw)
  }

  /**
   * The end of one target's dwell window: its summary row and raw rows are
   * appended, and the flag is cleared after the last target.
   */
  function CompleteTarget(s: Tester, d: Dwell, m: Math): (r: Tester)
    requires Valid(s) && s.started
    ensures Valid(r)
    ensures r.targets == s.targets && r.pending == s.pending[1..]
    ensures r.started <==> |s.pending| > 1
    ensures r.summary == s.summary + [ScoreTarget(s.targets[s.pending[0]], d, m).0]
    ensures r.raw == s.raw + ScoreTarget(s.targets[s.pending[0]], d, m).1
  {
    var (row, raw) := ScoreTarget(s.targets[s.pending[0]], d, m);
    Tester(s.targets, |s.pending| > 1, s.pending[1..], s.summary + [row], s.raw + raw)
  }

  /** Completes targets for as long as the session runs and dwell windows remain. */
  function Run(s: Tester, ds: seq<Dwell>, m: Math): (r: Tester)
    requires Valid(s)
    ensures Valid(r)
    decreases |ds|
  {
    if !s.started || |ds| == 0 then s
    else Run(CompleteTarget(s, ds[0], m), ds[1..], m)
  }

  /** The summary rows a session over `order` writes, one per visited target. */
  function SessionRows(targets: seq<Target>, order: seq<nat>, ds: seq<Dwell>, m: Math): (rows: seq<SummaryRow>)
    requires |ds| == |order|
    requires forall i :: 0 <= i < |order| ==> order[i] < |targets|
    ensures |rows| == |order|
    decreases |order|
  {
    if |order| == 0 then []
    else [ScoreTarget(targets[order[0]], ds[0], m).0] + SessionRows(targets, order[1..], ds[1..], m)
  }

  /** The `k`-th summary row of a session is the `k`-th visited target's. */
  lemma {:induction false} SessionRowsAt(targets: seq<Target>, order: seq<nat>, ds: seq<Dwell>, m: Math, k: nat)
    requires |ds| == |order|
    requires forall i :: 0 <= i < |order| ==> order[i] < |targets|
    requires k < |order|
    ensures SessionRows(targets, order, ds, m)[k] == ScoreTarget(targets[order[k]], ds[k], m).0
    decreases k
  {
    if k > 0 {
      SessionRowsAt(targets, order[1..], ds[1..], m, k - 1);
      assert order[1..][k - 1] == order[k] && ds[1..][k - 1] == ds[k];
    }
  }

  /** The raw rows a session over `order` writes: each visited target's, in visit order. */
  function SessionRaw(targets: seq<Target>, order: seq<nat>, ds: seq<Dwell>, m: Math): (raw: seq<RawRow>)
    requires |ds| == |order|
    requires forall i :: 0 <= i < |order| ==> order[i] < |targets|
    decreases |order|
  {
    if |order| == 0 then []
    else ScoreTarget(targets[order[0]], ds[0], m).1 + SessionRaw(targets, order[1..], ds[1..], m)
  }

  lemma AppendAssoc<T>(a: seq<T>, b: seq<T>, c: seq<T>)
    ensures (a + b) + c == a + (b + c)
  {
  }

  /** Running the pending targets appends exactly their raw rows, in visit order. */
  lemma {:induction false} RunRawInOrder(s: Tester, ds: seq<Dwell>, m: Math)
    requires Valid(s)
    requires |ds| == |s.pending|
    ensures Run(s, ds, m).raw == s.raw + SessionRaw(s.targets, s.pending, ds, m)
    decreases |ds|
  {
    if s.started && |ds| > 0 {
      var s' := CompleteTarget(s, ds[0], m);
      RunRawInOrder(s', ds[1..], m);
      var raw := ScoreTarget(s.targets[s.pending[0]], ds[0], m).1;
      var tail := SessionRaw(s.targets, s.pending[1..], ds[1..], m);
      assert SessionRaw(s.targets, s.pending, ds, m) == raw + tail;
      var e := Run(s', ds[1..], m);
      assert Run(s, ds, m) == e;
      assert s'.raw == s.raw + raw;
      assert e.raw == s'.raw + tail;
      AppendAssoc(s.raw, raw, tail);
    } else {
      assert |s.pending| == 0;
      assert SessionRaw(s.targets, s.pending, ds, m) == [];
    }
  }

  /**
   * Running the pending targets appends exactly their summary rows and their
   * raw rows, in visit order, and leaves the flag clear.
   */
  lemma {:induction false} RunAppendsInOrder(s: Tester, ds: seq<Dwell>, m: Math)
    requires Valid(s)
    requires |ds| == |s.pending|
    ensures Run(s, ds, m).summary == s.summary + SessionRows(s.targets, s.pending, ds, m)
    ensures Run(s, ds, m).raw == s.raw + SessionRaw(s.targets, s.pending, ds, m)
    ensures !Run(s, ds, m).started
    ensures Run(s, ds, m).targets == s.targets
    decreases |ds|
  {
    if s.started && |ds| > 0 {
      var s' := CompleteTarget(s, ds[0], m);
      RunAppendsInOrder(s', ds[1..], m);
      var row := ScoreTarget(s.targets[s.pending[0]], ds[0], m).0;
      var rest := SessionRows(s.targets, s.pending[1..], ds[1..], m);
      assert Run(s, ds, m) == Run(s', ds[1..], m);
      assert s'.summary == s.summary + [row];
      AppendAssoc(s.summary, [row], rest);
    } else {
      assert |s.pending| == 0;
    }
    RunRawInOrder(s, ds, m);
  }

  /**
   * A whole session from an idle component: exactly one summary row per
   * target and each target's raw rows, in the shuffled visit order, after which the flag is clear and
   * a new session may start.
   */
  lemma SessionWritesOneRowPerTarget(s: Tester, cam: Camera, p: Placement, trig: Trig,
                                     order: seq<nat>, ds: seq<Dwell>, m: Math)
    requires Valid(s) && !s.started
    requires IsPermutation(order, |s.targets|)
    requires |ds| == |s.targets|
    ensures var started := StartTest(s, cam, p, trig, order);
            var e := Run(started, ds, m);
            && !e.started
            && |e.summary| == |s.summary| + |s.targets|
            && e.raw == s.raw + SessionRaw(started.targets, order, ds, m)
            && (forall k :: 0 <= k < |order| ==>
                  e.summary[|s.summary| + k] == ScoreTarget(started.targets[order[k]], ds[k], m).0)
            && (forall j :: 0 <= j < |s.targets| ==> multiset(order)[j] == 1)
  {
    PermutationVisitsEachOnce(order, |s.targets|);
    var started := StartTest(s, cam, p, trig, order);
    RunAppendsInOrder(started, ds, m);
    var e := Run(started, ds, m);
    forall k | 0 <= k < |order|
      ensures e.summary[|s.summary| + k] == ScoreTarget(started.targets[order[k]], ds[k], m).0
    {
      SessionRowsAt(started.targets, order, ds, m, k);
    }
  }
}

=== FILE: eye_ray.dfy ===
/**
 * The eye-tracking ray (`Assets/Eye_Tracking_Ray.cs`): each frame it casts
 * along the eye's forward direction, un-hovers every interactable it has
 * collected, and hovers the one it hits. Interactables are named by `Id`s;
 * `hovered` is the set of interactables whose `IsHovered` flag is up.
 */
module EyeRay {
  import opened Wrappers

  type Id = nat

  /** The ray's list of interactables, the hovered flags, and whether the line shows the hover colour. */
  datatype Ray = Ray(tracked: seq<Id>, hovered: set<Id>, hoverColour: bool)

  /** What `LateUpdate` finds this frame. */
  datatype Sight =
    | NoEyeGaze                        // `eyeGaze` is null
    | Miss                             // the ray hit nothing in range
    | HitObject(interactable: Option<Id>)  // the hit object, and its EyeInteractable if it has one

  /** The interactables in the list. */
  function Members(tracked: seq<Id>): set<Id> {
    set i | 0 <= i < |tracked| :: tracked[i]
  }

  /**
   * `Unselect(clear)`: lowers the hovered flag of every listed interactable,
   * then empties the list when `clear` is set.
   */
  method Unselect(s: Ray, clear: bool) returns (r: Ray)
    ensures r.hovered == s.hovered - Members(s.tracked)
    ensures r.tracked == if clear then [] else s.tracked
    ensures r.hoverColour == s.hoverColour
  {
    var hovered := s.hovered;
    var i := 0;
    while i < |s.tracked|
      invariant 0 <= i <= |s.tracked|
      invariant hovered == s.hovered - Members(s.tracked[..i])
    {
      assert Members(s.tracked[..i + 1]) == Members(s.tracked[..i]) + {s.tracked[i]} by {
        assert s.tracked[..i + 1] == s.tracked[..i] + [s.tracked[i]];
      }
      hovered := hovered - {s.tracked[i]};
      i := i + 1;
    }
    assert s.tracked[..i] == s.tracked;
    r := Ray(if clear then [] else s.tracked, hovered, s.hoverColour);
  }

  /**
   * No listed interactable other than the last one hit is hovered: at most
   * one listed interactable is hovered, and only if it was the most recent
   * entry.
   */
  ghost predicate OneHovered(s: Ray) {
    forall i :: 0 <= i < |s.tracked| && s.tracked[i] in s.hovered ==> s.tracked[i] == s.tracked[|s.tracked| - 1]
  }

  /** `LateUpdate`: one frame of the ray. */
  method LateUpdate(s: Ray, sight: Sight) returns (r: Ray)
    ensures sight.NoEyeGaze? ==> r == s
    ensures sight.Miss? ==> r.tracked == [] && !r.hoverColour
    ensures sight.Miss? ==> forall x :: x in s.tracked ==> x !in r.hovered
    ensures sight.HitObject? ==> r.hoverColour
    ensures sight.HitObject? && sight.interactable.None? ==>
      r.tracked == s.tracked && forall x :: x in s.tracked ==> x !in r.hovered
    ensures sight.HitObject? && sight.interactable.Some? ==>
      && r.tracked == s.tracked + [sight.interactable.value]
      && forall x :: x in r.tracked ==> (x in r.hovered <==> x == sight.interactable.value)
    ensures !sight.NoEyeGaze? ==>
      forall x :: x !in s.tracked && !(sight.HitObject? && sight.interactable == Some(x)) ==>
        (x in r.hovered <==> x in s.hovered)
    ensures OneHovered(s) ==> OneHovered(r)
  {
    match sight {
      case NoEyeGaze =>
        r := s;
      case Miss =>
        r := Unselect(s, true);
        r := r.(hoverColour := false);
      case HitObject(interactable) =>
        r := Unselect(s, false);
        r := r.(hoverColour := true);
        if interactable.Some? {
          var id := interactable.value;
          r := r.(tracked := r.tracked + [id], hovered := r.hovered + {id});
        }
    }
  }

  /**
   * The list is never cleared on a hit: hitting the same interactable on two
   * consecutive frames lists it twice.
   */
  method RepeatedHitListsTwice(s: Ray, id: Id) returns (r: Ray)
    ensures r.tracked == s.tracked + [id, id]
    ensures multiset(r.tracked)[id] == multiset(s.tracked)[id] + 2
    ensures id in r.hovered
  {
    var once := LateUpdate(s, HitObject(Some(id)));
    r := LateUpdate(once, HitObject(Some(id)));
    assert r.tracked == s.tracked + [id] + [id];
    assert s.tracked + [id] + [id] == s.tracked + [id, id];
  }
}

=== FILE: fixed_order_accuracy_test.dfy ===
/**
 * The second eye-tracking accuracy test
 * (`Assets/AccuracyTest/EyeTrackingAccuracyTest.cs`). The visit order is
 * shuffled once, in `Awake`, and reused by every session; targets are not
 * re-placed. In each dwell window the first hit becomes the initial hit and
 * is never a sample; later hits within `TargetRadius` are. One log row is
 * written per target.
 */
module FixedOrderAccuracyTest {
  import opened Wrappers
  import opened Geometry
  import opened GazeSampling

  /** `targetRadius`: gaze is accepted within 0.5 m. */
  const TargetRadius: real := 0.5
  const TargetRadiusSq: real := TargetRadius * TargetRadius

  /** The measurement columns of a log row. */
  datatype Outcome =
    /** `null,null,null,null,0,expectedFrames,0.00,null,null` */
    | NoData(expectedFrames: int)
    /** The hit rate column is `validFrames / expectedFrames`. */
    | Scored(initialHit: Vec3, avgGaze: Vec3, centerError: real, eyeToTarget: real,
             validFrames: nat, expectedFrames: int, initialPercent: real, avgPercent: real)

  /** One log row, without its timestamp: target name, position and scale, then the outcome. */
  datatype LogRow = LogRow(name: string, position: Vec3, scale: Vec3, outcome: Outcome)

  /** The initial hit (if any) and the samples of one dwell window. */
  datatype Window = Window(initialHit: Option<Vec3>, samples: seq<Vec3>)

  /** The window a dwell produces: the first hit, then the later hits within the radius. */
  function WindowOf(ticks: seq<Tick>, center: Vec3): Window {
    var hits := Hits(ticks);
    if |hits| == 0 then Window(None, [])
    else Window(Some(hits[0]), Kept(hits[1..], center, TargetRadiusSq))
  }

  /** One more frame: a first hit becomes the initial hit; a later hit near the target becomes a sample. */
  lemma WindowSnoc(ticks: seq<Tick>, t: Tick, center: Vec3)
    ensures var w := WindowOf(ticks, center);
            WindowOf(ticks + [t], center) ==
              if t.Miss? then w
              else if w.initialHit.None? then Window(Some(t.point), [])
              else w.(samples := w.samples + (if SqDist(t.point, center) <= TargetRadiusSq then [t.point] else []))
  {
    HitsSnoc(ticks, t);
    var before := Hits(ticks);
    if t.Hit? && |before| > 0 {
      assert Hits(ticks + [t])[1..] == before[1..] + [t.point];
      KeptSnoc(before[1..], t.point, center, TargetRadiusSq);
    }
  }

  /**
   * The sampling loop of one dwell window: the first hit is recorded as the
   * initial hit, whatever its distance; every later hit within the radius
   * is a sample.
   */
  method SampleDwell(ticks: seq<Tick>, center: Vec3) returns (w: Window)
    ensures w.initialHit.Some? <==> |Hits(ticks)| > 0
    ensures w.initialHit.Some? ==> w.initialHit.value == Hits(ticks)[0]
    ensures w.initialHit.Some? ==> w.samples == Kept(Hits(ticks)[1..], center, TargetRadiusSq)
    ensures w.initialHit.None? ==> w.samples == []
  {
    var initialHit := Zero;
    var initialHitFound := false;
    var samples: seq<Vec3> := [];
    var i := 0;
    while i < |ticks|
      invariant 0 <= i <= |ticks|
      invariant Window(if initialHitFound then Some(initialHit) else None, samples) == WindowOf(ticks[..i], center)
    {
      assert ticks[..i + 1] == ticks[..i] + [ticks[i]];
      WindowSnoc(ticks[..i], ticks[i], center);
      if ticks[i].Hit? {
        var point := ticks[i].point;
        if !initialHitFound {
          initialHit := point;
          initialHitFound := true;
        } else {
          if SqDist(point, center) <= TargetRadiusSq {
            samples := samples + [point];
          }
        }
      }
      i := i + 1;
    }
    assert ticks[..i] == ticks;
    w := Window(if initialHitFound then Some(initialHit) else None, samples);
  }

  /**
   * The first hit is never a sample: there are at most (hit frames - 1)
   * valid frames, and samples imply an initial hit.
   */
  lemma WindowCounts(ticks: seq<Tick>, center: Vec3)
    ensures var w := WindowOf(ticks, center);
            && (|Hits(ticks)| > 0 ==> |w.samples| <= |HitTicks(ticks)| - 1)
            && (|w.samples| > 0 ==> w.initialHit.Some?)
            && AllWithin(w.samples, center, TargetRadiusSq)
  {
  }

  /**
   * The outcome of one target. It is scored only with an initial hit, some
   * samples, and a mean error within the radius; a mean error past the
   * radius is discarded, which cannot happen when the samples passed the
   * filter.
   */
  function Summarise(center: Vec3, w: Window, d: Dwell, m: Math): (o: Outcome)
    ensures o.expectedFrames == d.expectedFrames
    ensures o.Scored? ==> w.initialHit.Some? && |w.samples| > 0
    ensures o.Scored? ==> o.validFrames == |w.samples| && o.initialHit == w.initialHit.value
    ensures o.Scored? <==>
      w.initialHit.Some? && |w.samples| > 0 && Distance(m, Mean(w.samples), center) <= TargetRadius
    ensures o.Scored? ==>
      && o.avgGaze == Mean(w.samples)
      && o.centerError == Distance(m, o.avgGaze, center)
      && o.eyeToTarget == Distance(m, d.eye, center)
      && o.initialPercent == RadiusPercent(Distance(m, w.initialHit.value, center), TargetRadius)
      && o.avgPercent == RadiusPercent(o.centerError, TargetRadius)
    ensures o.Scored? ==> o.centerError <= TargetRadius
    ensures o.Scored? ==> o.initialPercent <= 100.0 && o.avgPercent <= 100.0
    ensures o.Scored? && LawfulMath(m) ==> 0.0 <= o.initialPercent && 0.0 <= o.avgPercent
    ensures LawfulMath(m) && AllWithin(w.samples, center, TargetRadiusSq) ==>
      (o.Scored? <==> w.initialHit.Some? && |w.samples| > 0)
  {
    if w.initialHit.Some? && |w.samples| > 0 then
      var avg := Mean(w.samples);
      var err := Distance(m, avg, center);
      if err > TargetRadius then
        assert LawfulMath(m) && AllWithin(w.samples, center, TargetRadiusSq) ==> false by {
          if LawfulMath(m) && AllWithin(w.samples, center, TargetRadiusSq) {
            MeanWithin(w.samples, center, TargetRadiusSq);
            SqNormNonNegative(Sub(avg, center));
            SqrtAtMost(m, SqDist(avg, center), TargetRadius);
          }
        }
        NoData(d.expectedFrames)
      else
        var eyeDist := Distance(m, d.eye, center);
        var initialError := Distance(m, w.initialHit.value, center);
        assert LawfulMath(m) ==> 0.0 <= err && 0.0 <= initialError by {
          SqNormNonNegative(Sub(avg, center));
          SqNormNonNegative(Sub(w.initialHit.value, center));
        }
        Scored(w.initialHit.value, avg, err, eyeDist, |w.samples|, d.expectedFrames,
               RadiusPercent(initialError, TargetRadius), RadiusPercent(err, TargetRadius))
    else
      NoData(d.expectedFrames)
  }

  /** The log row of one target's dwell window. */
  function ScoreTarget(t: Target, d: Dwell, m: Math): (row: LogRow)
    ensures row.name == t.name && row.position == t.position && row.scale == t.scale
  {
    LogRow(t.name, t.position, t.scale, Summarise(t.position, WindowOf(d.ticks, t.position), d, m))
  }

  /**
   * A target is scored exactly when some hit after the first lands within
   * the radius; otherwise its row reports zero valid frames.
   */
  lemma ScoredIffLaterHitNear(t: Target, d: Dwell, m: Math)
    requires LawfulMath(m)
    ensures ScoreTarget(t, d, m).outcome.Scored?
        <==> exists k :: 1 <= k < |Hits(d.ticks)| && SqDist(Hits(d.ticks)[k], t.position) <= TargetRadiusSq
  {
    var hits := Hits(d.ticks);
    var w := WindowOf(d.ticks, t.position);
    if exists k :: 1 <= k < |hits| && SqDist(hits[k], t.position) <= TargetRadiusSq {
      var k :| 1 <= k < |hits| && SqDist(hits[k], t.position) <= TargetRadiusSq;
      assert hits[1..][k - 1] == hits[k];
      assert hits[k] in w.samples;
    }
    if |w.samples| > 0 {
      assert w.samples[0] in hits[1..];
      var k :| 0 <= k < |hits[1..]| && hits[1..][k] == w.samples[0];
      assert hits[k + 1] == w.samples[0];
    }
  }

  // ---------------------------------------------------------------------
  // The session

  /** The test component: targets, the order fixed in `Awake`, `testStarted`, the targets still to visit, and the log. */
  datatype Tester = Tester(targets: seq<Target>, order: seq<nat>, started: bool,
                           pending: seq<nat>, log: seq<LogRow>)

  ghost predicate Valid(s: Tester) {
    && IsPermutation(s.order, |s.targets|)
    && (s.started <==> |s.pending| > 0)
    && forall i :: 0 <= i < |s.pending| ==> s.pending[i] < |s.targets|
  }

  /** `Awake`: the visit order is shuffled once, here, and never again. */
  function Awake(targets: seq<Target>, order: seq<nat>): (s: Tester)
    requires IsPermutation(order, |targets|)
    ensures Valid(s) && !s.started && s.order == order && s.log == []
    ensures s.targets == targets
  {
    Tester(targets, order, false, [], [])
  }

  /**
   * `StartTest`: ignored while a session runs; otherwise sets the flag and
   * visits the targets in the order fixed by `Awake`.
   */
  function StartTest(s: Tester): (r: Tester)
    requires Valid(s)
    ensures Valid(r)
    ensures s.started ==> r == s
    ensures !s.started ==> r.pending == s.order && (r.started <==> |s.targets| > 0)
    ensures r.targets == s.targets && r.order == s.order && r.log == s.log
  {
    if s.started then s else s.(started := |s.order| > 0, pending := s.order)
  }

  /** The end of one target's dwell window: its row is logged; the flag clears after the last. */
  function CompleteTarget(s: Tester, d: Dwell, m: Math): (r: Tester)
    requires Valid(s) && s.started
    ensures Valid(r)
    ensures r.targets == s.targets && r.order == s.order && r.pending == s.pending[1..]
    ensures r.started <==> |s.pending| > 1
    ensures r.log == s.log + [ScoreTarget(s.targets[s.pending[0]], d, m)]
  {
    s.(started := |s.pending| > 1, pending := s.pending[1..],
       log := s.log + [ScoreTarget(s.targets[s.pending[0]], d, m)])
  }

  function Run(s: Tester, ds: seq<Dwell>, m: Math): (r: Tester)
    requires Valid(s)
    ensures Valid(r)
    decreases |ds|
  {
    if !s.started || |ds| == 0 then s
    else Run(CompleteTarget(s, ds[0], m), ds[1..], m)
  }

  /** The rows a session over `order` logs, one per visited target. */
  function SessionRows(targets: seq<Target>, order: seq<nat>, ds: seq<Dwell>, m: Math): seq<LogRow>
    requires |ds| == |order|
    requires forall i :: 0 <= i < |order| ==> order[i] < |targets|
  {
    seq(|order|, k requires 0 <= k < |order| => ScoreTarget(targets[order[k]], ds[k], m))
  }

  lemma {:induction false} RunAppendsInOrder(s: Tester, ds: seq<Dwell>, m: Math)
    requires Valid(s)
    requires |ds| == |s.pending|
    ensures Run(s, ds, m).log == s.log + SessionRows(s.targets, s.pending, ds, m)
    ensures !Run(s, ds, m).started
    ensures Run(s, ds, m).targets == s.targets && Run(s, ds, m).order == s.order
    decreases |ds|
  {
    if s.started && |ds| > 0 {
      var s' := CompleteTarget(s, ds[0], m);
      RunAppendsInOrder(s', ds[1..], m);
      assert SessionRows(s.targets, s.pending, ds, m)
          == [ScoreTarget(s.targets[s.pending[0]], ds[0], m)] + SessionRows(s.targets, s.pending[1..], ds[1..], m);
    } else {
      assert |s.pending| == 0;
    }
  }

  /**
   * Every session, the first or any later one, logs exactly one row per
   * target, in the order fixed by `Awake`.
   */
  lemma EverySessionSameOrder(s: Tester, ds: seq<Dwell>, m: Math)
    requires Valid(s) && !s.started
    requires |ds| == |s.targets|
    ensures var e := Run(StartTest(s), ds, m);
            && !e.started && e.order == s.order
            && e.log == s.log + SessionRows(s.targets, s.order, ds, m)
            && (forall j :: 0 <= j < |s.targets| ==> multiset(s.order)[j] == 1)
  {
    PermutationVisitsEachOnce(s.order, |s.targets|);
    RunAppendsInOrder(StartTest(s), ds, m);
  }
}

=== FILE: gaze_analysis.dfy ===
/**
 * The per-sample loop of the gaze log analysis (`Assets/Logs/gaze_analysis.py`,
 * `main`): each logged gaze sample is skipped, matched to one of the nine
 * targets by its normalised label (exactly, or through a fuzzy matcher), and
 * shifted by that target's angular offset for the heat map.
 */
module GazeAnalysis {
  import opened Wrappers
  import opened Geometry
  import opened Labels

  /** A (yaw, pitch) pair in degrees. */
  datatype Angles = Angles(yaw: real, pitch: real)

  const Eccentricity: real := 35.0

  const TargetKeys: set<string> := {
    "middle middle", "middle top", "right top", "right middle", "right bottom",
    "middle bottom", "left bottom", "left middle", "left top"
  }

  /** The offset of each target label, as listed in `target_angles`; (0, 0) for any other label. */
  function Offset(t: Trig, key: string): Angles {
    var s := Eccentricity * t.sinDeg(45.0);
    var c := Eccentricity * t.cosDeg(45.0);
    if key == "middle middle" then Angles(0.0, 0.0)
    else if key == "middle top" then Angles(0.0, Eccentricity)
    else if key == "right top" then Angles(s, c)
    else if key == "right middle" then Angles(Eccentricity, 0.0)
    else if key == "right bottom" then Angles(s, -c)
    else if key == "middle bottom" then Angles(0.0, -Eccentricity)
    else if key == "left bottom" then Angles(-s, -c)
    else if key == "left middle" then Angles(-Eccentricity, 0.0)
    else if key == "left top" then Angles(-s, c)
    else Angles(0.0, 0.0)
  }

  /**
   * `target_angles`: the centre at (0, 0) and eight targets 35 degrees out,
   * the diagonals at 45 degrees.
   */
  function TargetAngles(t: Trig): map<string, Angles> {
    map k | k in TargetKeys :: Offset(t, k)
  }

  /** Nine targets, one of them the centre, the other eight on the 35-degree ring. */
  lemma TargetsOnRing(t: Trig)
    requires Pythagorean(t)
    ensures TargetAngles(t).Keys == TargetKeys
    ensures TargetAngles(t)["middle middle"] == Angles(0.0, 0.0)
    ensures forall k :: k in TargetAngles(t) && k != "middle middle" ==>
      TargetAngles(t)[k].yaw * TargetAngles(t)[k].yaw + TargetAngles(t)[k].pitch * TargetAngles(t)[k].pitch
        == Eccentricity * Eccentricity
  {
    var sn, cs := t.sinDeg(45.0), t.cosDeg(45.0);
    assert sn * sn + cs * cs == 1.0;
    var s, c := Eccentricity * sn, Eccentricity * cs;
    assert s * s + c * c == Eccentricity * Eccentricity * (sn * sn + cs * cs);
    assert (-s) * (-s) == s * s && (-c) * (-c) == c * c;
  }

  /** The three left-column keys are normal. */
  lemma LeftKeysNormal()
    ensures Normal("left top") && Normal("left middle") && Normal("left bottom")
  {
    LettersAndSpacesNormal("left top");
    LettersAndSpacesNormal("left middle");
    LettersAndSpacesNormal("left bottom");
  }

  /** The three middle-column keys are normal. */
  lemma MiddleKeysNormal()
    ensures Normal("middle top") && Normal("middle middle") && Normal("middle bottom")
  {
    LettersAndSpacesNormal("middle top");
    LettersAndSpacesNormal("middle middle");
    LettersAndSpacesNormal("middle bottom");
  }

  /** The three right-column keys are normal. */
  lemma RightKeysNormal()
    ensures Normal("right top") && Normal("right middle") && Normal("right bottom")
  {
    LettersAndSpacesNormal("right top");
    LettersAndSpacesNormal("right middle");
    LettersAndSpacesNormal("right bottom");
  }

  /** Every target key is normal. */
  lemma KeysAreNormal()
    ensures forall k :: k in TargetKeys ==> Normal(k)
  {
    LeftKeysNormal();
    MiddleKeysNormal();
    RightKeysNormal();
  }

  /** Every target key is already normal, so `normalize_label` maps it to itself. */
  lemma KeysAreFixedPoints()
    ensures forall k :: k in TargetKeys ==> Normalize(k) == k
  {
    KeysAreNormal();
    NormalLabelsFixed(TargetKeys);
  }

  /** One row of the samples file: its `Target` label and its yaw and pitch (None when NaN). */
  datatype Sample = Sample(target: string, yaw: Option<real>, pitch: Option<real>)

  /**
   * `get_close_matches(label, keys, n=1, cutoff=0.75)`, reduced to its first
   * result: the closest key above the cutoff, or None.
   */
  type Matcher = string -> Option<string>

  /** A row with neither angle is skipped. */
  predicate Skipped(row: Sample) {
    row.yaw.None? && row.pitch.None?
  }

  /** The corrected label of a row: None for a skipped row, else the exact or fuzzy match. */
  function Corrected(row: Sample, angles: map<string, Angles>, fuzzy: Matcher): (c: Option<string>)
    ensures Skipped(row) ==> c.None?
    ensures !Skipped(row) && Normalize(row.target) in angles ==> c == Some(Normalize(row.target))
    ensures !Skipped(row) && Normalize(row.target) !in angles ==> c == fuzzy(Normalize(row.target))
    ensures c.None? <==> Skipped(row) || (Normalize(row.target) !in angles && fuzzy(Normalize(row.target)).None?)
  {
    if Skipped(row) then None
    else
      var norm := Normalize(row.target);
      if norm in angles then Some(norm) else fuzzy(norm)
  }

  /** The row was fuzzy-matched to a non-empty label other than its own: `corrections` records it. */
  predicate Corrects(row: Sample, angles: map<string, Angles>, fuzzy: Matcher) {
    && !Skipped(row)
    && var norm := Normalize(row.target);
    && norm !in angles
    && fuzzy(norm).Some?
    && fuzzy(norm).value != ""
    && fuzzy(norm).value != norm
  }

  /** The row's corrected label is a target: it contributes a shifted point. */
  predicate Matched(row: Sample, angles: map<string, Angles>, fuzzy: Matcher) {
    var c := Corrected(row, angles, fuzzy);
    c.Some? && c.value in angles
  }

  /** The matcher only ever proposes one of the target keys, as `get_close_matches` over them does. */
  ghost predicate ProposesKeys(fuzzy: Matcher, angles: map<string, Angles>) {
    forall s :: fuzzy(s).Some? ==> fuzzy(s).value in angles
  }

  /** With such a matcher, a row contributes a point exactly when it gets a label. */
  lemma MatchedIffLabelled(row: Sample, angles: map<string, Angles>, fuzzy: Matcher)
    requires ProposesKeys(fuzzy, angles)
    ensures Matched(row, angles, fuzzy) <==> Corrected(row, angles, fuzzy).Some?
  {
    if !Skipped(row) {
      var norm := Normalize(row.target);
      if norm !in angles && fuzzy(norm).Some? {
        assert fuzzy(norm).value in angles;
      }
    }
  }

  /** A missing angle counts as 0. */
  function OrZero(a: Option<real>): real {
    a.GetOr(0.0)
  }

  /** The shifted point of a matched row: its angles plus the target's offset. */
  function Shift(row: Sample, angles: map<string, Angles>, fuzzy: Matcher): (p: Angles)
    requires Matched(row, angles, fuzzy)
    ensures var base := angles[Corrected(row, angles, fuzzy).value];
            p.yaw - base.yaw == OrZero(row.yaw) && p.pitch - base.pitch == OrZero(row.pitch)
  {
    var base := angles[Corrected(row, angles, fuzzy).value];
    Angles(OrZero(row.yaw) + base.yaw, OrZero(row.pitch) + base.pitch)
  }

  /** The indices of the elements that satisfy `p`. */
  function Where<T>(xs: seq<T>, p: T -> bool): set<int> {
    set i | 0 <= i < |xs| && p(xs[i])
  }

  /** Growing a sequence by one element adds its index exactly when it satisfies `p`. */
  lemma WhereSnoc<T>(xs: seq<T>, p: T -> bool)
    requires |xs| > 0
    ensures Where(xs, p) == Where(xs[..|xs| - 1], p) + (if p(xs[|xs| - 1]) then {|xs| - 1} else {})
  {
    var n := |xs| - 1;
    assert forall i :: 0 <= i < n ==> xs[..n][i] == xs[i];
  }

  /** `Matched` as a predicate value. */
  function MatchedBy(angles: map<string, Angles>, fuzzy: Matcher): Sample -> bool {
    row => Matched(row, angles, fuzzy)
  }

  /** The indices of the matched rows. */
  function MatchedRows(rows: seq<Sample>, angles: map<string, Angles>, fuzzy: Matcher): set<int> {
    Where(rows, MatchedBy(angles, fuzzy))
  }

  /** `f` of the elements that satisfy `p`, in order. */
  function Keep<T, U>(xs: seq<T>, p: T -> bool, f: T --> U): (ys: seq<U>)
    requires forall i :: 0 <= i < |xs| && p(xs[i]) ==> f.requires(xs[i])
    ensures |ys| <= |xs|
    decreases |xs|
  {
    if |xs| == 0 then []
    else
      var init := Keep(xs[..|xs| - 1], p, f);
      var last := xs[|xs| - 1];
      if p(last) then init + [f(last)] else init
  }

  /** `Keep` yields one element per index that satisfies `p`. */
  lemma {:induction false} KeepCount<T, U>(xs: seq<T>, p: T -> bool, f: T --> U)
    requires forall i :: 0 <= i < |xs| && p(xs[i]) ==> f.requires(xs[i])
    ensures |Keep(xs, p, f)| == |Where(xs, p)|
    decreases |xs|
  {
    if |xs| > 0 {
      var n := |xs| - 1;
      KeepCount(xs[..n], p, f);
      WhereSnoc(xs, p);
      assert n !in Where(xs[..n], p);
    }
  }

  /** Growing the input by one element appends `f` of it exactly when it satisfies `p`. */
  lemma KeepSnoc<T, U>(xs: seq<T>, x: T, p: T -> bool, f: T --> U)
    requires forall i :: 0 <= i < |xs| && p(xs[i]) ==> f.requires(xs[i])
    requires p(x) ==> f.requires(x)
    ensures forall i :: 0 <= i < |xs + [x]| && p((xs + [x])[i]) ==> f.requires((xs + [x])[i])
    ensures Keep(xs + [x], p, f) == Keep(xs, p, f) + (if p(x) then [f(x)] else [])
  {
    assert (xs + [x])[..|xs|] == xs;
  }

  /** `Shift` as a function value, defined on the matched rows. */
  function ShiftBy(angles: map<string, Angles>, fuzzy: Matcher): Sample --> Angles {
    row requires Matched(row, angles, fuzzy) => Shift(row, angles, fuzzy)
  }

  /** The shifted points of the matched rows, in row order. */
  function Shifted(rows: seq<Sample>, angles: map<string, Angles>, fuzzy: Matcher): seq<Angles> {
    Keep(rows, MatchedBy(angles, fuzzy), ShiftBy(angles, fuzzy))
  }

  /** There is one shifted point per matched row. */
  lemma ShiftedCount(rows: seq<Sample>, angles: map<string, Angles>, fuzzy: Matcher)
    ensures |Shifted(rows, angles, fuzzy)| == |MatchedRows(rows, angles, fuzzy)|
  {
    KeepCount(rows, MatchedBy(angles, fuzzy), ShiftBy(angles, fuzzy));
  }

  /** `f` of every element, in order. */
  function MapSeq<T, U>(xs: seq<T>, f: T -> U): (ys: seq<U>)
    ensures |ys| == |xs|
    decreases |xs|
  {
    if |xs| == 0 then [] else MapSeq(xs[..|xs| - 1], f) + [f(xs[|xs| - 1])]
  }

  /** Position `i` of `MapSeq` holds `f` of element `i`. */
  lemma {:induction false} MapSeqAt<T, U>(xs: seq<T>, f: T -> U)
    ensures forall i :: 0 <= i < |xs| ==> MapSeq(xs, f)[i] == f(xs[i])
    decreases |xs|
  {
    if |xs| > 0 {
      var n := |xs| - 1;
      MapSeqAt(xs[..n], f);
      assert forall i :: 0 <= i < n ==> xs[..n][i] == xs[i];
    }
  }

  /** Growing the input by one element appends `f` of it. */
  lemma MapSeqSnoc<T, U>(xs: seq<T>, x: T, f: T -> U)
    ensures MapSeq(xs + [x], f) == MapSeq(xs, f) + [f(x)]
  {
    assert (xs + [x])[..|xs|] == xs;
  }

  /** `Corrected` as a function value. */
  function CorrectedBy(angles: map<string, Angles>, fuzzy: Matcher): Sample -> Option<string> {
    row => Corrected(row, angles, fuzzy)
  }

  /** The corrected label of every row, in row order. */
  function CorrectedLabels(rows: seq<Sample>, angles: map<string, Angles>, fuzzy: Matcher): seq<Option<string>> {
    MapSeq(rows, CorrectedBy(angles, fuzzy))
  }

  /** The label at each position is that row's corrected label. */
  lemma CorrectedLabelsAt(rows: seq<Sample>, angles: map<string, Angles>, fuzzy: Matcher)
    ensures |CorrectedLabels(rows, angles, fuzzy)| == |rows|
    ensures forall i :: 0 <= i < |rows| ==> CorrectedLabels(rows, angles, fuzzy)[i] == Corrected(rows[i], angles, fuzzy)
  {
    MapSeqAt(rows, CorrectedBy(angles, fuzzy));
  }

  /**
   * The `corrections` dictionary after the given rows: every correcting row
   * writes its fuzzy match under its raw label, a later row overwriting an
   * earlier one.
   */
  function Corrections(rows: seq<Sample>, angles: map<string, Angles>, fuzzy: Matcher): map<string, string>
    decreases |rows|
  {
    if |rows| == 0 then map[]
    else
      var m := Corrections(rows[..|rows| - 1], angles, fuzzy);
      var last := rows[|rows| - 1];
      if Corrects(last, angles, fuzzy) then m[last.target := fuzzy(Normalize(last.target)).value] else m
  }

  /** One more row writes its correction, if it makes one, over the dictionary so far. */
  lemma CorrectionsSnoc(rows: seq<Sample>, row: Sample, angles: map<string, Angles>, fuzzy: Matcher)
    ensures Corrections(rows + [row], angles, fuzzy) ==
      var m := Corrections(rows, angles, fuzzy);
      if Corrects(row, angles, fuzzy) then m[row.target := fuzzy(Normalize(row.target)).value] else m
  {
    assert (rows + [row])[..|rows|] == rows;
  }

  /** The keys `key(x)` of the elements `x` that satisfy `p`. */
  function Image<T, K>(xs: seq<T>, p: T -> bool, key: T -> K): set<K> {
    set i | 0 <= i < |xs| && p(xs[i]) :: key(xs[i])
  }

  /** Growing a sequence by one element adds its key exactly when it satisfies `p`. */
  lemma ImageSnoc<T, K>(xs: seq<T>, p: T -> bool, key: T -> K)
    requires |xs| > 0
    ensures Image(xs, p, key) ==
      Image(xs[..|xs| - 1], p, key) + (if p(xs[|xs| - 1]) then {key(xs[|xs| - 1])} else {})
  {
    var n := |xs| - 1;
    assert forall i :: 0 <= i < n ==> xs[..n][i] == xs[i];
  }

  /** `Corrects` as a predicate value. */
  function CorrectsBy(angles: map<string, Angles>, fuzzy: Matcher): Sample -> bool {
    row => Corrects(row, angles, fuzzy)
  }

  /** A row's raw label. */
  function RawLabel(row: Sample): string {
    row.target
  }

  /** `corrections` is keyed by exactly the raw labels of the correcting rows. */
  lemma {:induction false} CorrectionKeys(rows: seq<Sample>, angles: map<string, Angles>, fuzzy: Matcher)
    ensures Corrections(rows, angles, fuzzy).Keys == Image(rows, CorrectsBy(angles, fuzzy), RawLabel)
    decreases |rows|
  {
    if |rows| > 0 {
      var init, last := rows[..|rows| - 1], rows[|rows| - 1];
      CorrectionKeys(init, angles, fuzzy);
      ImageSnoc(rows, CorrectsBy(angles, fuzzy), RawLabel);
      assert CorrectsBy(angles, fuzzy)(last) == Corrects(last, angles, fuzzy);
    }
  }

  /** Every entry of `corrections` maps a raw label to the non-empty fuzzy match of its normalised form. */
  lemma {:induction false} CorrectionValues(rows: seq<Sample>, angles: map<string, Angles>, fuzzy: Matcher)
    ensures forall k :: k in Corrections(rows, angles, fuzzy) ==>
      && fuzzy(Normalize(k)).Some?
      && Corrections(rows, angles, fuzzy)[k] == fuzzy(Normalize(k)).value
      && Corrections(rows, angles, fuzzy)[k] != ""
    decreases |rows|
  {
    if |rows| > 0 {
      var init, last := rows[..|rows| - 1], rows[|rows| - 1];
      CorrectionValues(init, angles, fuzzy);
      var m := Corrections(init, angles, fuzzy);
      if Corrects(last, angles, fuzzy) {
        assert Corrections(rows, angles, fuzzy) == m[last.target := fuzzy(Normalize(last.target)).value];
      } else {
        assert Corrections(rows, angles, fuzzy) == m;
      }
    }
  }

  /**
   * `corrections` holds exactly the raw labels of the correcting rows, each
   * mapped to the fuzzy match of its normalised form.
   */
  lemma CorrectionsSpec(rows: seq<Sample>, angles: map<string, Angles>, fuzzy: Matcher)
    ensures Corrections(rows, angles, fuzzy).Keys == Image(rows, CorrectsBy(angles, fuzzy), RawLabel)
    ensures forall k :: k in Corrections(rows, angles, fuzzy) ==>
      && fuzzy(Normalize(k)).Some?
      && Corrections(rows, angles, fuzzy)[k] == fuzzy(Normalize(k)).value
      && Corrections(rows, angles, fuzzy)[k] != ""
  {
    CorrectionKeys(rows, angles, fuzzy);
    CorrectionValues(rows, angles, fuzzy);
  }

  /** What the loop leaves: the corrected labels, the shifted points, and `corrections`. */
  datatype Analysis = Analysis(labels: seq<Option<string>>, shifted: seq<Angles>, corrections: map<string, string>)

  /**
   * One pass of the loop body: a skipped row appends no label; any other
   * row appends its corrected label, records a correction when the fuzzy
   * match is a different non-empty label, and appends its shifted point when
   * the label is a target.
   */
  method ClassifyRow(row: Sample, angles: map<string, Angles>, fuzzy: Matcher, a: Analysis) returns (b: Analysis)
    ensures b.labels == a.labels + [Corrected(row, angles, fuzzy)]
    ensures b.shifted == a.shifted + (if Matched(row, angles, fuzzy) then [Shift(row, angles, fuzzy)] else [])
    ensures b.corrections ==
      if Corrects(row, angles, fuzzy) then a.corrections[row.target := fuzzy(Normalize(row.target)).value]
      else a.corrections
  {
    var labels, shifted, corrections := a.labels, a.shifted, a.corrections;
    if Skipped(row) {
      labels := labels + [None];
    } else {
      var norm := Normalize(row.target);
      var corrected: Option<string>;
      if norm in angles {
        corrected := Some(norm);
      } else {
        corrected := fuzzy(norm);
        if corrected.Some? && corrected.value != "" && corrected.value != norm {
          corrections := corrections[row.target := corrected.value];
        }
      }
      labels := labels + [corrected];
      if corrected.Some? && corrected.value in angles {
        shifted := shifted + [Shift(row, angles, fuzzy)];
      }
    }
    b := Analysis(labels, shifted, corrections);
  }

  /**
   * The classification loop: one corrected label per row, one shifted point
   * per matched row, and a correction recorded under the raw label of every
   * row that was fuzzy-matched to a different label.
   */
  method Classify(rows: seq<Sample>, angles: map<string, Angles>, fuzzy: Matcher) returns (a: Analysis)
    ensures |a.labels| == |rows|
    ensures forall i :: 0 <= i < |rows| ==> a.labels[i] == Corrected(rows[i], angles, fuzzy)
    ensures a.shifted == Shifted(rows, angles, fuzzy)
    ensures |a.shifted| == |MatchedRows(rows, angles, fuzzy)|
    ensures a.corrections.Keys == Image(rows, CorrectsBy(angles, fuzzy), RawLabel)
    ensures forall k :: k in a.corrections ==> a.corrections[k] == fuzzy(Normalize(k)).value
  {
    a := RunRows(rows, angles, fuzzy);
    CorrectedLabelsAt(rows, angles, fuzzy);
    ShiftedCount(rows, angles, fuzzy);
    CorrectionsSpec(rows, angles, fuzzy);
  }

  /** The loop itself: its three outputs are the reference definitions over all rows. */
  method RunRows(rows: seq<Sample>, angles: map<string, Angles>, fuzzy: Matcher) returns (a: Analysis)
    ensures a.labels == CorrectedLabels(rows, angles, fuzzy)
    ensures a.shifted == Shifted(rows, angles, fuzzy)
    ensures a.corrections == Corrections(rows, angles, fuzzy)
  {
    a := Analysis([], [], map[]);
    var i := 0;
    while i < |rows|
      invariant 0 <= i <= |rows|
      invariant a.labels == CorrectedLabels(rows[..i], angles, fuzzy)
      invariant a.shifted == Shifted(rows[..i], angles, fuzzy)
      invariant a.corrections == Corrections(rows[..i], angles, fuzzy)
    {
      var row := rows[i];
      assert rows[..i + 1] == rows[..i] + [row];
      MapSeqSnoc(rows[..i], row, CorrectedBy(angles, fuzzy));
      KeepSnoc(rows[..i], row, MatchedBy(angles, fuzzy), ShiftBy(angles, fuzzy));
      CorrectionsSnoc(rows[..i], row, angles, fuzzy);
      a := ClassifyRow(row, angles, fuzzy, a);
      i := i + 1;
    }
    assert rows[..i] == rows;
  }

  /**
   * A row whose label normalises to a key keeps that key and is never
   * recorded as a correction, whatever the fuzzy matcher would propose.
   */
  lemma ExactLabelKept(row: Sample, angles: map<string, Angles>, fuzzy: Matcher)
    requires !Skipped(row) && Normalize(row.target) in angles
    ensures Corrected(row, angles, fuzzy) == Some(Normalize(row.target))
    ensures !Corrects(row, angles, fuzzy)
  {
  }
}

=== FILE: gaze_sampling.dfy ===
/**
 * What the two eye-tracking accuracy tests share: the per-frame ray
 * observations of a dwell window, the scene targets, the filter that keeps
 * hits near the target, and the shuffled visit order.
 */
module GazeSampling {
  import opened Wrappers
  import opened Geometry

  /**
   * One frame of a dwell window: the eye ray missed, or hit `point`. For a
   * hit, `yaw` and `pitch` are the signed angles the frame computes between
   * the hit and target directions (None where the source leaves NaN).
   */
  datatype Tick = Miss | Hit(point: Vec3, yaw: Option<real>, pitch: Option<real>)

  /** A target sphere: its name, world position and local scale. */
  datatype Target = Target(name: string, position: Vec3, scale: Vec3)

  /**
   * What the engine supplies for one target's dwell window: the ray result of
   * every frame while `Time.time - t0 < dwellTime`, the eye position when the
   * window closes, and `Mathf.RoundToInt(dwellTime / Time.deltaTime)`.
   */
  datatype Dwell = Dwell(ticks: seq<Tick>, eye: Vec3, expectedFrames: int)

  /** The ticks that hit something, in frame order. */
  function HitTicks(ticks: seq<Tick>): (r: seq<Tick>)
    ensures |r| <= |ticks|
    ensures forall i :: 0 <= i < |r| ==> r[i].Hit?
    ensures forall i :: 0 <= i < |ticks| && ticks[i].Hit? ==> ticks[i] in r
    ensures forall t :: t in r ==> t in ticks
    decreases |ticks|
  {
    if |ticks| == 0 then []
    else
      var init := HitTicks(ticks[..|ticks| - 1]);
      var last := ticks[|ticks| - 1];
      assert forall i :: 0 <= i < |ticks| - 1 ==> ticks[i] == ticks[..|ticks| - 1][i];
      if last.Hit? then init + [last] else init
  }

  /** The hit points of a dwell window, in frame order. */
  function Hits(ticks: seq<Tick>): (r: seq<Vec3>)
    ensures |r| == |HitTicks(ticks)|
  {
    var h := HitTicks(ticks);
    seq(|h|, i requires 0 <= i < |h| => h[i].point)
  }

  /** The points within squared distance `r2` of `c`, in order. */
  function Kept(ps: seq<Vec3>, c: Vec3, r2: real): (r: seq<Vec3>)
    ensures |r| <= |ps|
    ensures AllWithin(r, c, r2)
    ensures forall p :: p in r <==> p in ps && SqDist(p, c) <= r2
    decreases |ps|
  {
    if |ps| == 0 then []
    else
      var init := Kept(ps[..|ps| - 1], c, r2);
      var p := ps[|ps| - 1];
      assert forall q :: q in ps <==> q in ps[..|ps| - 1] || q == p;
      if SqDist(p, c) <= r2 then init + [p] else init
  }

  /**
   * `Mathf.Min(error / radius * 100f, 100f)`: the error as a percentage of
   * the acceptance radius, capped at 100.
   */
  function RadiusPercent(err: real, radius: real): (pct: real)
    requires 0.0 < radius
    ensures pct <= 100.0
    ensures 0.0 <= err ==> 0.0 <= pct
    ensures err <= radius ==> pct == err / radius * 100.0
    ensures radius <= err ==> pct == 100.0
  {
    var raw := err / radius * 100.0;
    if raw < 100.0 then raw else 100.0
  }

  /** One more frame adds its hit, if any, at the end. */
  lemma HitsSnoc(ticks: seq<Tick>, t: Tick)
    ensures HitTicks(ticks + [t]) == HitTicks(ticks) + (if t.Hit? then [t] else [])
    ensures Hits(ticks + [t]) == Hits(ticks) + (if t.Hit? then [t.point] else [])
  {
    assert (ticks + [t])[..|ticks|] == ticks;
  }

  lemma HitTicksNonEmpty(ticks: seq<Tick>)
    ensures |HitTicks(ticks)| > 0 <==> exists i :: 0 <= i < |ticks| && ticks[i].Hit?
  {
    if |HitTicks(ticks)| > 0 {
      assert HitTicks(ticks)[0] in ticks;
    }
    if exists i :: 0 <= i < |ticks| && ticks[i].Hit? {
      var i :| 0 <= i < |ticks| && ticks[i].Hit?;
      assert ticks[i] in HitTicks(ticks);
    }
  }

  lemma KeptSnoc(ps: seq<Vec3>, p: Vec3, c: Vec3, r2: real)
    ensures Kept(ps + [p], c, r2) == Kept(ps, c, r2) + (if SqDist(p, c) <= r2 then [p] else [])
  {
    assert (ps + [p])[..|ps|] == ps;
  }

  /** Every hit frame is kept, repeats included: a tick occurs among the hits as often as among the frames. */
  lemma {:induction false} HitTicksCount(ticks: seq<Tick>, t: Tick)
    requires t.Hit?
    ensures multiset(HitTicks(ticks))[t] == multiset(ticks)[t]
    decreases |ticks|
  {
    if |ticks| > 0 {
      var init, last := ticks[..|ticks| - 1], ticks[|ticks| - 1];
      assert ticks == init + [last];
      HitTicksCount(init, t);
    }
  }

  /**
   * Every point within the radius is kept as often as it occurs, and no
   * other point is kept.
   */
  lemma {:induction false} KeptCount(ps: seq<Vec3>, c: Vec3, r2: real, p: Vec3)
    ensures multiset(Kept(ps, c, r2))[p] == if SqDist(p, c) <= r2 then multiset(ps)[p] else 0
    decreases |ps|
  {
    if |ps| > 0 {
      var init, last := ps[..|ps| - 1], ps[|ps| - 1];
      assert ps == init + [last];
      KeptCount(init, c, r2, p);
    }
  }

  // ---------------------------------------------------------------------
  // Visit order

  /** `[0, 1, ..., n - 1]` */
  function Indices(n: nat): (r: seq<nat>)
    ensures |r| == n
    ensures forall i :: 0 <= i < n ==> r[i] == i
  {
    seq(n, i => i)
  }

  /**
   * `targets.OrderBy(_ => Random.value)` yields some rearrangement of the
   * target indices: `n` of them, each in range, each appearing exactly as
   * often as in `Indices(n)`.
   */
  ghost predicate IsPermutation(order: seq<nat>, n: nat) {
    && |order| == n
    && (forall i :: 0 <= i < |order| ==> order[i] < n)
    && multiset(order) == multiset(Indices(n))
  }

  lemma {:induction false} IndicesCount(n: nat, j: nat)
    ensures multiset(Indices(n))[j] == if j < n then 1 else 0
  {
    if n > 0 {
      assert Indices(n) == Indices(n - 1) + [n - 1];
      IndicesCount(n - 1, j);
    }
  }

  lemma RepeatCounted(order: seq<nat>, i: nat, j: nat)
    requires i < j < |order| && order[i] == order[j]
    ensures multiset(order)[order[i]] >= 2
  {
    var x := order[i];
    assert order == order[..i] + [x] + order[i + 1..j] + [x] + order[j + 1..];
  }

  /** A permutation visits every target exactly once. */
  lemma PermutationVisitsEachOnce(order: seq<nat>, n: nat)
    requires IsPermutation(order, n)
    ensures forall j :: 0 <= j < n ==> multiset(order)[j] == 1
    ensures forall i, j :: 0 <= i < j < |order| ==> order[i] != order[j]
  {
    forall j | 0 <= j < n ensures multiset(order)[j] == 1 {
      IndicesCount(n, j);
    }
    forall i, j | 0 <= i < j < |order| ensures order[i] != order[j] {
      if order[i] == order[j] {
        RepeatCounted(order, i, j);
        IndicesCount(n, order[i]);
      }
    }
  }
}

=== FILE: geometry.dfy ===
/**
 * Real-valued 3-vectors standing for Unity's `Vector3`, and the few facts
 * about them the rest of the model needs. Distances are compared squared,
 * so no square root is needed to decide "within radius"; where a square
 * root, an angle or a sine/cosine is reported, it is supplied by a record
 * of functions constrained only by the identities they satisfy.
 */
module Geometry {

  datatype Vec3 = Vec3(x: real, y: real, z: real)

  const Zero: Vec3 := Vec3(0.0, 0.0, 0.0)

  function Add(a: Vec3, b: Vec3): Vec3 {
    Vec3(a.x + b.x, a.y + b.y, a.z + b.z)
  }

  function Sub(a: Vec3, b: Vec3): Vec3 {
    Vec3(a.x - b.x, a.y - b.y, a.z - b.z)
  }

  /** `v * k` */
  function Scale(v: Vec3, k: real): Vec3 {
    Vec3(v.x * k, v.y * k, v.z * k)
  }

  /** `v / k`, as Unity divides a vector by a scalar. */
  function Div(v: Vec3, k: real): Vec3
    requires k != 0.0
  {
    Vec3(v.x / k, v.y / k, v.z / k)
  }

  function Dot(a: Vec3, b: Vec3): real {
    a.x * b.x + a.y * b.y + a.z * b.z
  }

  function SqNorm(v: Vec3): real {
    Dot(v, v)
  }

  /** The square of `Vector3.Distance(a, b)`. */
  function SqDist(a: Vec3, b: Vec3): real {
    SqNorm(Sub(a, b))
  }

  /** `ps.Aggregate(Vector3.zero, (s, p) => s + p)`: a left fold. */
  function Sum(ps: seq<Vec3>): Vec3
    decreases |ps|
  {
    if |ps| == 0 then Zero else Add(Sum(ps[..|ps| - 1]), ps[|ps| - 1])
  }

  /** The sum divided by the count, as both accuracy tests average their samples. */
  function Mean(ps: seq<Vec3>): Vec3
    requires |ps| > 0
  {
    Div(Sum(ps), |ps| as real)
  }

  /** Every point lies within squared distance `r2` of `c`. */
  ghost predicate AllWithin(ps: seq<Vec3>, c: Vec3, r2: real) {
    forall i :: 0 <= i < |ps| ==> SqDist(ps[i], c) <= r2
  }

  // ---------------------------------------------------------------------
  // Square roots, angles and trigonometry, supplied from outside

  /** `Mathf.Sqrt` (inside `Vector3.Distance`) and `Vector3.Angle`. */
  datatype Math = Math(sqrt: real -> real, angle: (Vec3, Vec3) -> real)

  /** The only facts used of the square root: it is a non-negative root. */
  ghost predicate LawfulMath(m: Math) {
    forall x :: 0.0 <= x ==> 0.0 <= m.sqrt(x) && m.sqrt(x) * m.sqrt(x) == x
  }

  /** `Vector3.Distance(a, b)`. */
  function Distance(m: Math, a: Vec3, b: Vec3): real {
    m.sqrt(SqDist(a, b))
  }

  /** `Mathf.Sin(d * Mathf.Deg2Rad)` and `Mathf.Cos(d * Mathf.Deg2Rad)`, on degrees. */
  datatype Trig = Trig(sinDeg: real -> real, cosDeg: real -> real)

  ghost predicate Pythagorean(t: Trig) {
    forall a :: t.sinDeg(a) * t.sinDeg(a) + t.cosDeg(a) * t.cosDeg(a) == 1.0
  }

  /** Three unit vectors, pairwise perpendicular (a camera's forward/right/up). */
  ghost predicate Orthonormal(f: Vec3, r: Vec3, u: Vec3) {
    && SqNorm(f) == 1.0 && SqNorm(r) == 1.0 && SqNorm(u) == 1.0
    && Dot(f, r) == 0.0 && Dot(f, u) == 0.0 && Dot(r, u) == 0.0
  }

  // ---------------------------------------------------------------------
  // Facts

  lemma SqNormNonNegative(v: Vec3)
    ensures 0.0 <= SqNorm(v)
  {
    assert 0.0 <= v.x * v.x && 0.0 <= v.y * v.y && 0.0 <= v.z * v.z;
  }

  lemma SqDistSymmetric(a: Vec3, b: Vec3)
    ensures SqDist(a, b) == SqDist(b, a)
  {
    assert (a.x - b.x) * (a.x - b.x) == (b.x - a.x) * (b.x - a.x);
    assert (a.y - b.y) * (a.y - b.y) == (b.y - a.y) * (b.y - a.y);
    assert (a.z - b.z) * (a.z - b.z) == (b.z - a.z) * (b.z - a.z);
  }

  lemma SqNormAdd(a: Vec3, b: Vec3)
    ensures SqNorm(Add(a, b)) == SqNorm(a) + 2.0 * Dot(a, b) + SqNorm(b)
  {
  }

  lemma SqNormSubScaled(s: Vec3, w: Vec3, n: real)
    ensures SqNorm(Sub(s, Scale(w, n))) == SqNorm(s) - 2.0 * n * Dot(s, w) + n * n * SqNorm(w)
  {
  }

  lemma DivIsScale(v: Vec3, k: real)
    requires k != 0.0
    ensures Div(v, k) == Scale(v, 1.0 / k)
  {
  }

  lemma ScaleProduct(v: Vec3, a: real, b: real)
    ensures Scale(Scale(v, a), b) == Scale(v, a * b)
  {
  }

  lemma SqNormScale(v: Vec3, q: real)
    ensures SqNorm(Scale(v, q)) == q * q * SqNorm(v)
  {
  }

  lemma SqNormDiv(v: Vec3, k: real)
    requires k != 0.0
    ensures SqNorm(Div(v, k)) * (k * k) == SqNorm(v)
  {
    var q := 1.0 / k;
    DivIsScale(v, k);
    SqNormScale(v, q);
    assert q * k == 1.0;
    assert q * q * (k * k) == (q * k) * (q * k);
  }

  /**
   * The cross term of |s + w|^2 is bounded without Cauchy-Schwarz:
   * 0 <= |s - n w|^2 gives 2 n (s . w) <= |s|^2 + n^2 |w|^2 <= 2 n^2 r2.
   */
  lemma CrossTermBound(s: Vec3, w: Vec3, n: real, r2: real)
    requires 0.0 < n
    requires SqNorm(s) <= n * n * r2
    requires SqNorm(w) <= r2
    ensures Dot(s, w) <= n * r2
  {
    SqNormSubScaled(s, w, n);
    SqNormNonNegative(Sub(s, Scale(w, n)));
    assert n * n * SqNorm(w) <= n * n * r2 by {
      assert 0.0 <= n * n;
      MulMonotone(n * n, SqNorm(w), r2);
    }
    assert 2.0 * n * Dot(s, w) <= 2.0 * n * (n * r2);
    if Dot(s, w) > n * r2 {
      MulStrict(2.0 * n, Dot(s, w), n * r2);
      assert false;
    }
  }

  lemma MulMonotone(k: real, a: real, b: real)
    requires 0.0 <= k && a <= b
    ensures k * a <= k * b
  {
  }

  lemma MulStrict(k: real, a: real, b: real)
    requires 0.0 < k && a > b
    ensures k * a > k * b
  {
  }

  /** The arithmetic of one inductive step of `DeviationBound`. */
  lemma StepArith(a: real, b: real, c: real, n: real, m: real, r2: real)
    requires m == n + 1.0
    requires a <= n * n * r2 && b <= n * r2 && c <= r2
    ensures a + 2.0 * b + c <= m * m * r2
  {
    assert m * m * r2 == n * n * r2 + 2.0 * (n * r2) + r2;
  }

  /** How far the summed points are from |ps| copies of `c`. */
  function Deviation(ps: seq<Vec3>, c: Vec3): Vec3 {
    Sub(Sum(ps), Scale(c, |ps| as real))
  }

  /** One inductive step of `DeviationBound`. */
  lemma DeviationStep(s: Vec3, w: Vec3, k: nat, k1: nat, r2: real)
    requires k1 == k + 1
    requires 0.0 <= r2
    requires SqNorm(s) <= (k as real) * (k as real) * r2
    requires SqNorm(w) <= r2
    requires k == 0 ==> s == Zero
    ensures SqNorm(Add(s, w)) <= (k1 as real) * (k1 as real) * r2
  {
    var n := k as real;
    var m := k1 as real;
    assert m == n + 1.0;
    if k == 0 {
      assert Add(s, w) == w;
      assert m * m * r2 == r2;
    } else {
      SqNormAdd(s, w);
      CrossTermBound(s, w, n, r2);
      StepArith(SqNorm(s), Dot(s, w), SqNorm(w), n, m, r2);
    }
  }

  lemma DeviationSnoc(ps: seq<Vec3>, c: Vec3)
    requires |ps| > 0
    ensures Deviation(ps, c) == Add(Deviation(ps[..|ps| - 1], c), Sub(ps[|ps| - 1], c))
  {
    ScaleSucc(c, (|ps| - 1) as real, |ps| as real);
  }

  lemma ScaleSucc(c: Vec3, n: real, m: real)
    requires m == n + 1.0
    ensures Scale(c, m) == Add(Scale(c, n), c)
  {
    assert c.x * m == c.x * n + c.x;
    assert c.y * m == c.y * n + c.y;
    assert c.z * m == c.z * n + c.z;
  }

  lemma DeviationEmpty(c: Vec3)
    ensures Deviation([], c) == Zero
  {
    assert c.x * 0.0 == 0.0 && c.y * 0.0 == 0.0 && c.z * 0.0 == 0.0;
  }

  /** Adding one more point within squared distance `r2` of `c` keeps the bound. */
  lemma DeviationGrow(ps: seq<Vec3>, c: Vec3, r2: real)
    requires |ps| > 0 && 0.0 <= r2
    requires SqNorm(Deviation(ps[..|ps| - 1], c)) <= ((|ps| - 1) as real) * ((|ps| - 1) as real) * r2
    requires SqDist(ps[|ps| - 1], c) <= r2
    ensures SqNorm(Deviation(ps, c)) <= (|ps| as real) * (|ps| as real) * r2
  {
    var init := ps[..|ps| - 1];
    if |init| == 0 {
      DeviationEmpty(c);
    }
    DeviationSnoc(ps, c);
    DeviationStep(Deviation(init, c), Sub(ps[|ps| - 1], c), |init|, |ps|, r2);
  }

  /**
   * The summed deviation from `c` of points each within squared distance
   * `r2` of `c` has squared length at most n^2 r2.
   */
  lemma {:induction false} DeviationBound(ps: seq<Vec3>, c: Vec3, r2: real)
    requires 0.0 <= r2
    requires AllWithin(ps, c, r2)
    ensures SqNorm(Deviation(ps, c)) <= (|ps| as real) * (|ps| as real) * r2
    decreases |ps|
  {
    if |ps| == 0 {
      DeviationEmpty(c);
    } else {
      var init := ps[..|ps| - 1];
      assert AllWithin(init, c, r2) by {
        forall i | 0 <= i < |init| ensures SqDist(init[i], c) <= r2 {
          assert init[i] == ps[i];
        }
      }
      DeviationBound(init, c, r2);
      DeviationGrow(ps, c, r2);
    }
  }

  lemma MeanMinus(ps: seq<Vec3>, c: Vec3)
    requires |ps| > 0
    ensures Sub(Mean(ps), c) == Div(Deviation(ps, c), |ps| as real)
  {
    var n := |ps| as real;
    var t := Sum(ps);
    assert t.x / n - c.x == (t.x - c.x * n) / n;
    assert t.y / n - c.y == (t.y - c.y * n) / n;
    assert t.z / n - c.z == (t.z - c.z * n) / n;
  }

  /**
   * The mean of points each within squared distance `r2` of `c` is itself
   * within squared distance `r2` of `c` (the disc is convex).
   */
  lemma MeanWithin(ps: seq<Vec3>, c: Vec3, r2: real)
    requires |ps| > 0
    requires 0.0 <= r2
    requires AllWithin(ps, c, r2)
    ensures SqDist(Mean(ps), c) <= r2
  {
    var n := |ps| as real;
    var d := Deviation(ps, c);
    DeviationBound(ps, c, r2);
    MeanMinus(ps, c);
    SqNormDiv(d, n);
    var e := SqNorm(Div(d, n));
    assert e * (n * n) <= r2 * (n * n);
    if e > r2 {
      MulStrict(n * n, e, r2);
      assert false;
    }
  }

  /** Summing a concatenation sums each part. */
  lemma {:induction false} SumAppend(a: seq<Vec3>, b: seq<Vec3>)
    ensures Sum(a + b) == Add(Sum(a), Sum(b))
    decreases |b|
  {
    if |b| == 0 {
      assert a + b == a;
    } else {
      var init := b[..|b| - 1];
      assert (a + b)[..|a + b| - 1] == a + init;
      SumAppend(a, init);
    }
  }

  /** Taking the `j`-th point out of a sum and adding it back gives the sum. */
  lemma SumRemove(qs: seq<Vec3>, j: nat)
    requires j < |qs|
    ensures Sum(qs) == Add(Sum(qs[..j] + qs[j + 1..]), qs[j])
  {
    var front, back := qs[..j], qs[j + 1..];
    assert qs == (front + [qs[j]]) + back;
    assert (front + [qs[j]])[..j] == front;
    SumAppend(front + [qs[j]], back);
    SumAppend(front, back);
  }

  /** The sum does not depend on the order of the points. */
  lemma {:induction false} SumPermutation(ps: seq<Vec3>, qs: seq<Vec3>)
    requires multiset(ps) == multiset(qs)
    ensures Sum(ps) == Sum(qs)
    decreases |ps|
  {
    if |ps| == 0 {
      assert |qs| == |multiset(qs)| == 0;
    } else {
      var init, last := ps[..|ps| - 1], ps[|ps| - 1];
      assert ps == init + [last];
      assert last in multiset(qs);
      var j :| 0 <= j < |qs| && qs[j] == last;
      var rest := qs[..j] + qs[j + 1..];
      assert qs == qs[..j] + [last] + qs[j + 1..];
      assert multiset(qs) == multiset(rest) + multiset{last};
      assert multiset(ps) == multiset(init) + multiset{last};
      assert multiset(rest) == multiset(qs) - multiset{last};
      assert multiset(init) == multiset(ps) - multiset{last};
      SumPermutation(init, rest);
      SumRemove(qs, j);
    }
  }

  /**
   * The mean does not depend on the order of the points: any rearrangement
   * of the samples has the same count and the same mean.
   */
  lemma MeanPermutation(ps: seq<Vec3>, qs: seq<Vec3>)
    requires |ps| > 0 && multiset(ps) == multiset(qs)
    ensures |qs| == |ps| && Mean(ps) == Mean(qs)
  {
    assert |qs| == |multiset(qs)| == |multiset(ps)| == |ps|;
    SumPermutation(ps, qs);
  }

  lemma MulPositive(a: real, b: real)
    requires 0.0 < a && 0.0 < b
    ensures 0.0 < a * b
  {
  }

  lemma SquareMonotone(s: real, r: real)
    requires 0.0 <= s <= r
    ensures s * s <= r * r
  {
    assert (r - s) * (r + s) >= 0.0;
    assert (r - s) * (r + s) == r * r - s * s;
  }

  lemma SquareStrict(s: real, r: real)
    requires 0.0 <= r < s
    ensures r * r < s * s
  {
    MulPositive(s - r, s + r);
    assert (s - r) * (s + r) == s * s - r * r;
  }

  /** For a lawful square root and a non-negative bound, `sqrt(q) <= r` iff `q <= r * r`. */
  lemma SqrtAtMost(m: Math, q: real, r: real)
    requires LawfulMath(m)
    requires 0.0 <= q && 0.0 <= r
    ensures m.sqrt(q) <= r <==> q <= r * r
  {
    var s := m.sqrt(q);
    assert 0.0 <= s && s * s == q;
    if s <= r {
      SquareMonotone(s, r);
    } else {
      SquareStrict(s, r);
    }
  }
}

=== FILE: labels.dfy ===
/**
 * Target-label normalisation of the gaze log analysis
 * (`Assets/Logs/gaze_analysis.py`, `normalize_label`): drop non-ASCII
 * characters, drop zero-width spaces, collapse every whitespace run to one
 * space, trim, lower-case.
 */
module Labels {

  /** A code point below 128. */
  predicate IsAscii(c: char) {
    (c as int) < 128
  }

  /**
   * Python's whitespace (`\s` on a `str`, and `str.strip`), over ASCII:
   * tab, newline, vertical tab, form feed, carriage return, the four
   * information separators 0x1C-0x1F, and the space.
   */
  predicate IsSpace(c: char) {
    c == ' ' || (9 <= c as int <= 13) || (28 <= c as int <= 31)
  }

  predicate IsUpper(c: char) {
    'A' <= c <= 'Z'
  }

  /** `str.lower` on an ASCII character. */
  function LowerChar(c: char): (d: char)
    ensures !IsUpper(d)
    ensures IsSpace(d) <==> IsSpace(c)
    ensures IsAscii(c) ==> IsAscii(d)
    ensures !IsUpper(c) ==> d == c
    ensures IsUpper(c) ==> d as int == c as int + 32
  {
    if IsUpper(c) then (c as int + 32) as char else c
  }

  /** U+200B ZERO WIDTH SPACE */
  const ZeroWidthSpace: char := '\U{200B}'

  // ---------------------------------------------------------------------
  // The properties of a normalised label

  ghost predicate AllAscii(s: string) {
    forall i :: 0 <= i < |s| ==> IsAscii(s[i])
  }

  ghost predicate NoUpper(s: string) {
    forall i :: 0 <= i < |s| ==> !IsUpper(s[i])
  }

  /** Every whitespace character is a plain space. */
  ghost predicate OnlyPlainSpaces(s: string) {
    forall i :: 0 <= i < |s| && IsSpace(s[i]) ==> s[i] == ' '
  }

  /** No space is followed by another. */
  ghost predicate NoDoubleSpace(s: string) {
    forall i, j :: 0 <= i && j == i + 1 && j < |s| && s[i] == ' ' ==> s[j] != ' '
  }

  ghost predicate Trimmed(s: string) {
    |s| > 0 ==> !IsSpace(s[0]) && !IsSpace(s[|s| - 1])
  }

  /**
   * What `normalize_label` promises of its output: ASCII only, no capitals,
   * single plain spaces between words, none at either end.
   */
  ghost predicate Normal(s: string) {
    AllAscii(s) && NoUpper(s) && OnlyPlainSpaces(s) && NoDoubleSpace(s) && Trimmed(s)
  }

  // ---------------------------------------------------------------------
  // The stages

  /** `label.encode("ascii", "ignore").decode()` */
  function FilterAscii(s: string): (r: string)
    ensures AllAscii(r)
    ensures |r| <= |s|
    ensures AllAscii(s) ==> r == s
    ensures |s| == 1 ==> r == if IsAscii(s[0]) then s else []
    decreases |s|
  {
    if |s| == 0 then []
    else (if IsAscii(s[0]) then [s[0]] else []) + FilterAscii(s[1..])
  }

  /** `label.replace(c, "")` */
  function RemoveChar(s: string, c: char): (r: string)
    ensures forall i :: 0 <= i < |r| ==> r[i] != c
    ensures (forall i :: 0 <= i < |s| ==> s[i] != c) ==> r == s
    ensures |s| == 1 ==> r == if s[0] == c then [] else s
    decreases |s|
  {
    if |s| == 0 then []
    else (if s[0] == c then [] else [s[0]]) + RemoveChar(s[1..], c)
  }

  /**
   * Filtering works piece by piece: the ASCII characters of a concatenation
   * are those of its first part followed by those of its second, so with the
   * one-character case, exactly the ASCII characters survive, in order.
   */
  lemma {:induction false} FilterAsciiAppend(a: string, b: string)
    ensures FilterAscii(a + b) == FilterAscii(a) + FilterAscii(b)
    decreases |a|
  {
    if |a| == 0 {
      assert a + b == b;
    } else {
      assert (a + b)[1..] == a[1..] + b;
      FilterAsciiAppend(a[1..], b);
    }
  }

  /** Likewise, removal keeps every other character, in order. */
  lemma {:induction false} RemoveCharAppend(a: string, b: string, c: char)
    ensures RemoveChar(a + b, c) == RemoveChar(a, c) + RemoveChar(b, c)
    decreases |a|
  {
    if |a| == 0 {
      assert a + b == b;
    } else {
      assert (a + b)[1..] == a[1..] + b;
      RemoveCharAppend(a[1..], b, c);
    }
  }

  /** The length of the leading whitespace run. */
  function LeadingSpaces(s: string): (n: nat)
    ensures n <= |s|
    ensures forall k :: 0 <= k < n ==> IsSpace(s[k])
    ensures n < |s| ==> !IsSpace(s[n])
    decreases |s|
  {
    if |s| > 0 && IsSpace(s[0]) then 1 + LeadingSpaces(s[1..]) else 0
  }

  /** The length of the trailing whitespace run. */
  function TrailingSpaces(s: string): (n: nat)
    ensures n <= |s|
    ensures forall k :: |s| - n <= k < |s| ==> IsSpace(s[k])
    ensures n < |s| ==> !IsSpace(s[|s| - 1 - n])
    decreases |s|
  {
    if |s| > 0 && IsSpace(s[|s| - 1]) then 1 + TrailingSpaces(s[..|s| - 1]) else 0
  }

  /** `re.sub(r'\s+', ' ', label)`: every maximal whitespace run becomes one space. */
  function Collapse(s: string): (r: string)
    ensures OnlyPlainSpaces(r) && NoDoubleSpace(r)
    ensures |r| > 0 <==> |s| > 0
    ensures |s| > 0 ==> (IsSpace(r[0]) <==> IsSpace(s[0]))
    decreases |s|
  {
    if |s| == 0 then []
    else if IsSpace(s[0]) then [' '] + Collapse(s[LeadingSpaces(s)..])
    else [s[0]] + Collapse(s[1..])
  }

  /** Every whitespace character replaced by a plain space. */
  function PlainSpaces(s: string): (r: string)
    ensures |r| == |s|
    decreases |s|
  {
    if |s| == 0 then [] else [if IsSpace(s[0]) then ' ' else s[0]] + PlainSpaces(s[1..])
  }

  /** Every space that directly follows another space dropped. */
  function Squeeze(s: string): (r: string)
    decreases |s|
  {
    if |s| == 0 then []
    else if |s| > 1 && s[0] == ' ' && s[1] == ' ' then Squeeze(s[1..])
    else [s[0]] + Squeeze(s[1..])
  }

  /** A whitespace run at the front squeezes to one space before the rest. */
  lemma {:induction false} SqueezeRun(s: string)
    requires |s| > 0 && IsSpace(s[0])
    ensures Squeeze(PlainSpaces(s)) == [' '] + Squeeze(PlainSpaces(s[LeadingSpaces(s)..]))
    decreases |s|
  {
    var p := PlainSpaces(s);
    assert p[1..] == PlainSpaces(s[1..]);
    if |s| > 1 && IsSpace(s[1]) {
      assert p[1] == ' ';
      SqueezeRun(s[1..]);
      assert s[1..][LeadingSpaces(s[1..])..] == s[LeadingSpaces(s)..];
    } else {
      assert LeadingSpaces(s) == 1;
      assert |s| > 1 ==> p[1] == s[1] != ' ';
    }
  }

  /**
   * `Collapse` agrees with an independent two-step definition: turn every
   * whitespace character into a space, then drop each space that follows
   * another.
   */
  lemma {:induction false} CollapseIsSqueeze(s: string)
    ensures Collapse(s) == Squeeze(PlainSpaces(s))
    decreases |s|
  {
    if |s| > 0 {
      if IsSpace(s[0]) {
        SqueezeRun(s);
        CollapseIsSqueeze(s[LeadingSpaces(s)..]);
      } else {
        var p := PlainSpaces(s);
        assert p[1..] == PlainSpaces(s[1..]);
        assert p[0] == s[0] != ' ';
        CollapseIsSqueeze(s[1..]);
      }
    }
  }

  /** Collapsing adds only plain spaces, so ASCII text stays ASCII. */
  lemma {:induction false} CollapseKeepsAscii(s: string)
    requires AllAscii(s)
    ensures AllAscii(Collapse(s))
    decreases |s|
  {
    if |s| > 0 {
      SliceKeeps(s, 1, |s|);
      if IsSpace(s[0]) {
        SliceKeeps(s, LeadingSpaces(s), |s|);
        CollapseKeepsAscii(s[LeadingSpaces(s)..]);
      } else {
        CollapseKeepsAscii(s[1..]);
      }
    }
  }

  /** Text whose whitespace is already single plain spaces is left unchanged. */
  lemma {:induction false} CollapseFixesCollapsed(s: string)
    requires OnlyPlainSpaces(s) && NoDoubleSpace(s)
    ensures Collapse(s) == s
    decreases |s|
  {
    if |s| > 0 {
      SliceKeeps(s, 1, |s|);
      if IsSpace(s[0]) && |s| > 1 {
        assert s[0] == ' ';
        assert !IsSpace(s[1]);
      }
      CollapseFixesCollapsed(s[1..]);
    }
  }

  /** `str.strip()`: the input without its leading and trailing whitespace runs. */
  function Strip(s: string): (r: string)
    ensures Trimmed(r) && |r| <= |s|
    ensures Trimmed(s) ==> r == s
  {
    var i := LeadingSpaces(s);
    if i == |s| then
      assert s[0..0] == [];
      []
    else
      var j := |s| - TrailingSpaces(s);
      s[i..j]
  }

  /** What `Strip` keeps is one contiguous piece of its input. */
  lemma StripIsSlice(s: string) returns (i: int, j: int)
    ensures 0 <= i <= j <= |s| && Strip(s) == s[i..j]
    ensures forall k :: 0 <= k < i ==> IsSpace(s[k])
    ensures forall k :: j <= k < |s| ==> IsSpace(s[k])
  {
    i := LeadingSpaces(s);
    if i == |s| {
      j := i;
    } else {
      j := |s| - TrailingSpaces(s);
    }
  }

  /** `str.lower()` on ASCII text. */
  function Lower(s: string): (r: string)
    ensures |r| == |s| && NoUpper(r)
    ensures forall i :: 0 <= i < |s| ==> (IsSpace(r[i]) <==> IsSpace(s[i])) && (r[i] == ' ' <==> s[i] == ' ')
    ensures AllAscii(s) ==> AllAscii(r)
    ensures NoUpper(s) ==> r == s
    ensures forall i :: 0 <= i < |s| && IsUpper(s[i]) ==> r[i] as int == s[i] as int + 32
    ensures forall i :: 0 <= i < |s| && !IsUpper(s[i]) ==> r[i] == s[i]
  {
    seq(|s|, i requires 0 <= i < |s| => LowerChar(s[i]))
  }

  /** `normalize_label` on a string label. */
  function Normalize(s: string): string {
    Lower(Strip(Collapse(RemoveChar(FilterAscii(s), ZeroWidthSpace))))
  }

  // ---------------------------------------------------------------------
  // Properties

  /** Once non-ASCII characters are gone, the zero-width-space removal changes nothing. */
  lemma ZeroWidthRemovalIsNoOp(s: string)
    ensures RemoveChar(FilterAscii(s), ZeroWidthSpace) == FilterAscii(s)
  {
  }

  /** A slice keeps the character-wise properties of the string it is cut from. */
  lemma SliceKeeps(s: string, i: int, j: int)
    requires 0 <= i <= j <= |s|
    ensures AllAscii(s) ==> AllAscii(s[i..j])
    ensures OnlyPlainSpaces(s) ==> OnlyPlainSpaces(s[i..j])
    ensures NoDoubleSpace(s) ==> NoDoubleSpace(s[i..j])
  {
    var t := s[i..j];
    assert forall k :: 0 <= k < |t| ==> t[k] == s[i + k];
  }

  /** Lower-casing trimmed, collapsed ASCII text makes it normal. */
  lemma LowerMakesNormal(t: string)
    requires AllAscii(t) && OnlyPlainSpaces(t) && NoDoubleSpace(t) && Trimmed(t)
    ensures Normal(Lower(t))
  {
    var r := Lower(t);
    assert OnlyPlainSpaces(r) by {
      forall k | 0 <= k < |r| && IsSpace(r[k]) ensures r[k] == ' ' {
        assert IsSpace(t[k]);
      }
    }
    assert NoDoubleSpace(r) by {
      forall k | 0 <= k < |r| - 1 && r[k] == ' ' ensures r[k + 1] != ' ' {
        assert t[k] == ' ';
      }
    }
  }

  predicate IsLowerLetter(c: char) {
    'a' <= c <= 'z'
  }

  /**
   * Lower-case letters with single spaces between them, none at either
   * end, form a normal label.
   */
  lemma LettersAndSpacesNormal(s: string)
    requires forall i :: 0 <= i < |s| ==> IsLowerLetter(s[i]) || s[i] == ' '
    requires NoDoubleSpace(s)
    requires |s| > 0 ==> s[0] != ' ' && s[|s| - 1] != ' '
    ensures Normal(s)
  {
  }

  /** Every output of `normalize_label` is normal. */
  lemma NormalizeIsNormal(s: string)
    ensures Normal(Normalize(s))
  {
    var a := FilterAscii(s);
    ZeroWidthRemovalIsNoOp(s);
    CollapseKeepsAscii(a);
    var c := Collapse(a);
    var t := Strip(c);
    var i, j := StripIsSlice(c);
    SliceKeeps(c, i, j);
    LowerMakesNormal(t);
  }

  /** A normal label is left as it is. */
  lemma NormalIsFixedPoint(s: string)
    requires Normal(s)
    ensures Normalize(s) == s
  {
    assert FilterAscii(s) == s;
    assert RemoveChar(s, ZeroWidthSpace) == s;
    CollapseFixesCollapsed(s);
    assert Strip(s) == s;
  }

  /** A set of normal labels is left as it is, label by label. */
  lemma NormalLabelsFixed(ks: set<string>)
    requires forall k :: k in ks ==> Normal(k)
    ensures forall k :: k in ks ==> Normalize(k) == k
  {
    forall k | k in ks ensures Normalize(k) == k {
      NormalIsFixedPoint(k);
    }
  }

  /** `normalize_label` is idempotent, and its fixed points are exactly the normal labels. */
  lemma NormalizeIdempotent(s: string)
    ensures Normalize(Normalize(s)) == Normalize(s)
    ensures Normalize(s) == s <==> Normal(s)
  {
    NormalizeIsNormal(s);
    NormalIsFixedPoint(Normalize(s));
    if Normal(s) {
      NormalIsFixedPoint(s);
    }
  }
}

=== FILE: proximity_haptics.dfy ===
/**
 * Proximity haptics (`Assets/Intensity_based_on_Distance.cs`): the closer
 * the enemy, the shorter the interval between heartbeat pulses and the
 * stronger each pulse. One call of `Update` is one frame.
 */
module ProximityHaptics {
  import opened Wrappers
  import opened Geometry

  /** `Mathf.Clamp01` */
  function Clamp01(t: real): (r: real)
    ensures 0.0 <= r <= 1.0
    ensures 0.0 <= t <= 1.0 ==> r == t
  {
    if t < 0.0 then 0.0 else if t > 1.0 then 1.0 else t
  }

  /** Outside [0, 1] the clamp gives the nearer end: 0 below, 1 above. */
  lemma Clamp01Ends(t: real)
    ensures t < 0.0 ==> Clamp01(t) == 0.0
    ensures 1.0 < t ==> Clamp01(t) == 1.0
  {
  }

  /**
   * `n / d` for a positive `d`: the `q` with `q * d == n`, non-positive for a
   * non-positive `n`, in [0, 1] for `n` in [0, d], and at least 1 from `d` on.
   */
  function Ratio(n: real, d: real): (q: real)
    requires 0.0 < d
    ensures q * d == n
    ensures n <= 0.0 ==> q <= 0.0
    ensures 0.0 <= n <= d ==> 0.0 <= q <= 1.0
    ensures d <= n ==> 1.0 <= q
  {
    assert n <= 0.0 ==> n / d <= 0.0 by {
      if n <= 0.0 { DivMonotone(n, 0.0, d); }
    }
    assert 0.0 <= n ==> 0.0 <= n / d by {
      if 0.0 <= n { DivMonotone(0.0, n, d); }
    }
    assert n <= d ==> n / d <= 1.0 by {
      if n <= d { DivMonotone(n, d, d); assert d / d == 1.0; }
    }
    assert d <= n ==> 1.0 <= n / d by {
      if d <= n { DivMonotone(d, n, d); assert d / d == 1.0; }
    }
    n / d
  }

  /**
   * `Mathf.InverseLerp`: where `v` sits between `a` and `b`, clamped; 0 when
   * `a == b`. The quotient `(v - a) / (b - a)` is taken with a positive
   * divisor, which is the same value (see InverseLerpFormula).
   */
  function InverseLerp(a: real, b: real, v: real): (t: real)
    ensures 0.0 <= t <= 1.0
    ensures a < b && v <= a ==> t == 0.0
    ensures a < b && b <= v ==> t == 1.0
    ensures a < b && a <= v <= b ==> t * (b - a) == v - a
    ensures b < a && v <= b ==> t == 1.0
    ensures a == b ==> t == 0.0
  {
    if a < b then Clamp01(Ratio(v - a, b - a))
    else if b < a then Clamp01(Ratio(a - v, a - b))
    else 0.0
  }

  /** `InverseLerp` is Unity's `a != b ? Clamp01((v - a) / (b - a)) : 0`. */
  lemma InverseLerpFormula(a: real, b: real, v: real)
    ensures InverseLerp(a, b, v) == if a != b then Clamp01((v - a) / (b - a)) else 0.0
  {
    if b < a {
      assert (a - v) / (a - b) == (v - a) / (b - a);
    }
  }

  /**
   * The fraction `c` of a non-negative gap `d`: at most the whole gap, none
   * of it at 0 and all of it at 1.
   */
  function Portion(d: real, c: real): (p: real)
    requires 0.0 <= d && 0.0 <= c <= 1.0
    ensures 0.0 <= p <= d
    ensures c == 0.0 ==> p == 0.0
    ensures c == 1.0 ==> p == d
  {
    MulMonotone(d, 0.0, c);
    MulMonotone(d, c, 1.0);
    d * c
  }

  /**
   * `Mathf.Lerp`: from `a` to `b` by `t` clamped to [0, 1]. The clamped
   * fraction of the gap is added when `a <= b` and taken away otherwise,
   * which is the formula `a + (b - a) * t` (see `LerpFormula`).
   */
  function Lerp(a: real, b: real, t: real): (r: real)
    ensures a <= b ==> a <= r <= b
    ensures b <= a ==> b <= r <= a
    ensures t <= 0.0 ==> r == a
    ensures 1.0 <= t ==> r == b
  {
    if a <= b then a + Portion(b - a, Clamp01(t)) else a - Portion(a - b, Clamp01(t))
  }

  /** `Lerp` is Unity's interpolation formula on the clamped fraction. */
  lemma LerpFormula(a: real, b: real, t: real)
    ensures Lerp(a, b, t) == a + (b - a) * Clamp01(t)
  {
    if b < a {
      assert (a - b) * Clamp01(t) == -((b - a) * Clamp01(t));
    }
  }

  /**
   * `Mathf.RoundToInt`: the nearest integer, halves going to the even
   * neighbour.
   */
  function RoundToInt(x: real): (n: int)
    ensures -0.5 <= (n as real) - x <= 0.5
    ensures x == (x.Floor as real) ==> n == x.Floor
  {
    var f := x.Floor;
    var frac := x - f as real;
    if frac < 0.5 then f
    else if frac > 0.5 then f + 1
    else if f % 2 == 0 then f else f + 1
  }

  /** A value exactly halfway between two integers rounds to the even one. */
  lemma RoundHalfToEven(x: real)
    requires x - (x.Floor as real) == 0.5
    ensures RoundToInt(x) % 2 == 0
    ensures RoundToInt(x) == x.Floor || RoundToInt(x) == x.Floor + 1
  {
  }

  /** Rounding never reverses an order. */
  lemma RoundMonotone(x: real, y: real)
    requires x <= y
    ensures RoundToInt(x) <= RoundToInt(y)
  {
    var fx, fy := x.Floor, y.Floor;
    assert fx <= fy;
  }

  /** An integer-bounded value rounds within the same integer bounds. */
  lemma RoundWithin(x: real, lo: int, hi: int)
    requires lo as real <= x <= hi as real
    ensures lo <= RoundToInt(x) <= hi
  {
    assert lo <= x.Floor <= hi;
  }

  /** The inspector settings. */
  datatype Settings = Settings(maxDistance: real, minDistance: real, minInterval: real, maxInterval: real)

  /** The defaults: 10 m, 1.5 m, 0.1 s and 1.5 s. */
  const Defaults: Settings := Settings(10.0, 1.5, 0.1, 1.5)

  /** The scheduler's state: `timer` and `currentInterval`. */
  datatype Scheduler = Scheduler(cfg: Settings, timer: real, currentInterval: real)

  /** A heartbeat pulse: duration in milliseconds and intensity. */
  datatype Pulse = Pulse(pattern: string, durationMs: int, intensity: int)

  const Heartbeat: string := "heartbeat"
  const PulseDurationMs: int := 100

  /** The initial state: timer 0, interval 1 s. */
  function Init(cfg: Settings): (s: Scheduler)
    ensures s.timer == 0.0 && s.currentInterval == 1.0
  {
    Scheduler(cfg, 0.0, 1.0)
  }

  /** `1 - InverseLerp(minDistance, maxDistance, distance)`: 1 at the near end, 0 at the far end. */
  function Proximity(cfg: Settings, distance: real): (p: real)
    ensures 0.0 <= p <= 1.0
    ensures cfg.minDistance < cfg.maxDistance && distance <= cfg.minDistance ==> p == 1.0
    ensures cfg.minDistance < cfg.maxDistance && cfg.maxDistance <= distance ==> p == 0.0
    ensures cfg.minDistance < cfg.maxDistance && cfg.minDistance <= distance <= cfg.maxDistance ==>
      (1.0 - p) * (cfg.maxDistance - cfg.minDistance) == distance - cfg.minDistance
  {
    1.0 - InverseLerp(cfg.minDistance, cfg.maxDistance, distance)
  }

  /** The pulse interval for a proximity: `maxInterval` far away down to `minInterval` close by. */
  function Interval(cfg: Settings, proximity: real): (i: real)
    ensures cfg.minInterval <= cfg.maxInterval ==> cfg.minInterval <= i <= cfg.maxInterval
    ensures cfg.maxInterval <= cfg.minInterval ==> cfg.maxInterval <= i <= cfg.minInterval
    ensures i == cfg.maxInterval + (cfg.minInterval - cfg.maxInterval) * Clamp01(proximity)
  {
    LerpFormula(cfg.maxInterval, cfg.minInterval, proximity);
    Lerp(cfg.maxInterval, cfg.minInterval, proximity)
  }

  /** The pulse intensity for a proximity: 10 far away up to 100 close by. */
  function Intensity(proximity: real): (n: int)
    ensures 10 <= n <= 100
    ensures proximity <= 0.0 ==> n == 10
    ensures 1.0 <= proximity ==> n == 100
    ensures 0.0 <= proximity <= 1.0 ==> -0.5 <= (n as real) - (10.0 + 90.0 * proximity) <= 0.5
  {
    var x := Lerp(10.0, 100.0, proximity);
    LerpFormula(10.0, 100.0, proximity);
    RoundWithin(x, 10, 100);
    RoundToInt(x)
  }

  /** What one frame does: the new state and the pulse played, if any. */
  datatype Frame = Frame(next: Scheduler, pulse: Option<Pulse>)

  /**
   * `Update`: out of range the timer restarts and nothing plays; in range
   * the interval follows the distance, the timer advances, and a pulse
   * plays (restarting the timer) once the timer reaches the interval.
   */
  function Update(s: Scheduler, player: Vec3, enemy: Vec3, dt: real, m: Math): (f: Frame)
    ensures f.next.cfg == s.cfg
    ensures Distance(m, player, enemy) > s.cfg.maxDistance ==>
      f.pulse.None? && f.next.timer == 0.0 && f.next.currentInterval == s.currentInterval
    ensures Distance(m, player, enemy) <= s.cfg.maxDistance ==>
      f.next.currentInterval == Interval(s.cfg, Proximity(s.cfg, Distance(m, player, enemy)))
    ensures f.pulse.Some? <==>
      Distance(m, player, enemy) <= s.cfg.maxDistance && s.timer + dt >= f.next.currentInterval
    ensures f.pulse.Some? ==> f.next.timer == 0.0
    ensures f.pulse.None? && Distance(m, player, enemy) <= s.cfg.maxDistance ==> f.next.timer == s.timer + dt
    ensures f.pulse.Some? ==>
      && f.pulse.value.pattern == Heartbeat
      && f.pulse.value.durationMs == PulseDurationMs
      && 10 <= f.pulse.value.intensity <= 100
      && f.pulse.value.intensity == Intensity(Proximity(s.cfg, Distance(m, player, enemy)))
  {
    var distance := Distance(m, player, enemy);
    if distance > s.cfg.maxDistance then
      Frame(s.(timer := 0.0), None)
    else
      var proximity := Proximity(s.cfg, distance);
      var interval := Interval(s.cfg, proximity);
      var timer := s.timer + dt;
      if timer < interval then
        Frame(s.(currentInterval := interval, timer := timer), None)
      else
        Frame(s.(currentInterval := interval, timer := 0.0),
              Some(Pulse(Heartbeat, PulseDurationMs, Intensity(proximity))))
  }

  lemma DivMonotone(x: real, y: real, c: real)
    requires 0.0 < c && x <= y
    ensures x / c <= y / c
  {
    assert y / c - x / c == (y - x) / c;
  }

  /** A larger numerator over the same positive divisor gives no smaller ratio. */
  lemma RatioMonotone(x: real, y: real, c: real)
    requires 0.0 < c && x <= y
    ensures Ratio(x, c) <= Ratio(y, c)
  {
    DivMonotone(x, y, c);
  }

  /** `InverseLerp` does not decrease in its value when `a < b`. */
  lemma InverseLerpMonotone(a: real, b: real, v: real, w: real)
    requires a < b && v <= w
    ensures InverseLerp(a, b, v) <= InverseLerp(a, b, w)
  {
    RatioMonotone(v - a, w - a, b - a);
  }

  lemma Clamp01Monotone(t: real, u: real)
    requires t <= u
    ensures Clamp01(t) <= Clamp01(u)
  {
  }

  /** A larger fraction of the same gap is no smaller. */
  lemma PortionMonotone(d: real, c: real, e: real)
    requires 0.0 <= d && 0.0 <= c <= e <= 1.0
    ensures Portion(d, c) <= Portion(d, e)
  {
    MulMonotone(d, c, e);
  }

  /** `Lerp` does not decrease in `t` when `a <= b`, and does not increase when `b <= a`. */
  lemma LerpMonotone(a: real, b: real, t: real, u: real)
    requires t <= u
    ensures a <= b ==> Lerp(a, b, t) <= Lerp(a, b, u)
    ensures b <= a ==> Lerp(a, b, u) <= Lerp(a, b, t)
  {
    Clamp01Monotone(t, u);
    if a <= b {
      PortionMonotone(b - a, Clamp01(t), Clamp01(u));
    } else {
      PortionMonotone(a - b, Clamp01(t), Clamp01(u));
    }
  }

  /**
   * The nearer of two distances gets a pulse interval no longer and an
   * intensity no weaker than the farther one, when the distance bounds and
   * the interval bounds are each given in order.
   */
  lemma CloserPulsesFasterAndStronger(cfg: Settings, near: real, far: real)
    requires cfg.minDistance <= cfg.maxDistance
    requires cfg.minInterval <= cfg.maxInterval
    requires near <= far
    ensures Interval(cfg, Proximity(cfg, near)) <= Interval(cfg, Proximity(cfg, far))
    ensures Intensity(Proximity(cfg, far)) <= Intensity(Proximity(cfg, near))
  {
    var pn, pf := Proximity(cfg, near), Proximity(cfg, far);
    if cfg.minDistance < cfg.maxDistance {
      InverseLerpMonotone(cfg.minDistance, cfg.maxDistance, near, far);
    }
    assert pf <= pn;
    LerpMonotone(cfg.maxInterval, cfg.minInterval, pf, pn);
    LerpMonotone(10.0, 100.0, pf, pn);
    RoundMonotone(Lerp(10.0, 100.0, pf), Lerp(10.0, 100.0, pn));
  }

  /** With reversed distance bounds, every distance within `maxDistance` has proximity 0. */
  lemma ReversedBoundsFlat(cfg: Settings, distance: real)
    requires cfg.maxDistance < cfg.minDistance && distance <= cfg.maxDistance
    ensures Proximity(cfg, distance) == 0.0
  {
  }

  /**
   * Within `maxDistance`, where the pulses are actually played, the nearer
   * of two distances gets an interval no longer and an intensity no weaker
   * than the farther one, for distance bounds in either order. With
   * reversed distance bounds every distance in range has proximity 0, so
   * every pulse in range is the same.
   */
  lemma InRangeCloserPulsesFasterAndStronger(cfg: Settings, near: real, far: real)
    requires cfg.minInterval <= cfg.maxInterval
    requires near <= far <= cfg.maxDistance
    ensures Interval(cfg, Proximity(cfg, near)) <= Interval(cfg, Proximity(cfg, far))
    ensures Intensity(Proximity(cfg, far)) <= Intensity(Proximity(cfg, near))
    ensures cfg.maxDistance < cfg.minDistance ==> Proximity(cfg, near) == 0.0 && Proximity(cfg, far) == 0.0
  {
    if cfg.maxDistance < cfg.minDistance {
      ReversedBoundsFlat(cfg, near);
      ReversedBoundsFlat(cfg, far);
    } else {
      CloserPulsesFasterAndStronger(cfg, near, far);
    }
  }
}

=== FILE: target_layout.dfy ===
/**
 * Placement of the calibration targets: one centre target straight ahead
 * of the camera and a ring of eight around it, tilted `ringTiltDeg` off the
 * forward axis. `TargetArranger.Start` and the first accuracy test's
 * `PositionTargets` run the same placement; the arranger also checks each
 * ring index against the array length before writing it.
 */
module TargetLayout {
  import opened Geometry

  /** The main camera's position and its normalised forward/right/up axes. */
  datatype Camera = Camera(origin: Vec3, forward: Vec3, right: Vec3, up: Vec3)

  /** The placement settings: distance to every target and the ring's tilt in degrees. */
  datatype Placement = Placement(radius: real, ringTiltDeg: real)

  /** One centre target plus an 8-ring. */
  const RingSize: nat := 8
  const SlotsNeeded: nat := 9

  /** Azimuth of ring target `i`, in degrees: `i * 45f`. */
  function Azimuth(i: nat): (a: real)
    requires i < RingSize
    ensures 0.0 <= a <= 315.0
  {
    (i as real) * 45.0
  }

  /** `origin + forward * radius` */
  function CentrePosition(cam: Camera, p: Placement): Vec3 {
    Add(cam.origin, Scale(cam.forward, p.radius))
  }

  /** `origin + forward * fOffset + (right * cos(az) + up * sin(az)) * ringR` */
  function RingPosition(cam: Camera, p: Placement, trig: Trig, i: nat): Vec3
    requires i < RingSize
  {
    var ringR := p.radius * trig.sinDeg(p.ringTiltDeg);
    var forwardOffset := p.radius * trig.cosDeg(p.ringTiltDeg);
    var az := Azimuth(i);
    var radial := Scale(Add(Scale(cam.right, trig.cosDeg(az)), Scale(cam.up, trig.sinDeg(az))), ringR);
    Add(Add(cam.origin, Scale(cam.forward, forwardOffset)), radial)
  }

  /**
   * The ring loop from index `i` on: slot `i + 1` receives ring position
   * `i`, unless `i + 1` is past the end, where the loop breaks.
   */
  function PlaceRing(slots: seq<Vec3>, cam: Camera, p: Placement, trig: Trig, i: nat): (r: seq<Vec3>)
    requires i <= RingSize
    ensures |r| == |slots|
    ensures forall j :: 0 <= j < |slots| && (j <= i || RingSize < j) ==> r[j] == slots[j]
    ensures forall j :: i <= j < RingSize && j + 1 < |slots| ==> r[j + 1] == RingPosition(cam, p, trig, j)
    decreases RingSize - i
  {
    if i == RingSize then slots
    else if i + 1 >= |slots| then slots
    else PlaceRing(slots[i + 1 := RingPosition(cam, p, trig, i)], cam, p, trig, i + 1)
  }

  /** The new slot positions, and whether anything was placed. */
  datatype Arranged = Arranged(positions: seq<Vec3>, placed: bool)

  /**
   * Places the centre and the ring into the first nine slots. With fewer than
   * nine slots it logs an error and leaves every slot where it was.
   */
  function Arrange(slots: seq<Vec3>, cam: Camera, p: Placement, trig: Trig): (r: Arranged)
    ensures |r.positions| == |slots|
    ensures r.placed <==> |slots| >= SlotsNeeded
    ensures !r.placed ==> r.positions == slots
    ensures r.placed ==> r.positions[0] == CentrePosition(cam, p)
    ensures r.placed ==> forall i :: 0 <= i < RingSize ==> r.positions[i + 1] == RingPosition(cam, p, trig, i)
    ensures forall j :: SlotsNeeded <= j < |slots| ==> r.positions[j] == slots[j]
  {
    if |slots| < SlotsNeeded then Arranged(slots, false)
    else Arranged(PlaceRing(slots[0 := CentrePosition(cam, p)], cam, p, trig, 0), true)
  }

  /** The eight azimuths are evenly spaced 45 degrees apart, hence distinct. */
  lemma AzimuthsEvenlySpaced()
    ensures forall i, j :: 0 <= i < RingSize && 0 <= j < RingSize ==> Azimuth(j) - Azimuth(i) == 45.0 * ((j - i) as real)
    ensures forall i, j :: 0 <= i < j < RingSize ==> Azimuth(i) < Azimuth(j)
    ensures Azimuth(0) == 0.0 && Azimuth(RingSize - 1) == 315.0
  {
  }

  // ---------------------------------------------------------------------
  // Every placed target lies on the sphere of radius `p.radius`

  lemma DotScaleLeft(a: Vec3, k: real, b: Vec3)
    ensures Dot(Scale(a, k), b) == k * Dot(a, b)
  {
  }

  lemma DotAddRight(a: Vec3, b: Vec3, c: Vec3)
    ensures Dot(a, Add(b, c)) == Dot(a, b) + Dot(a, c)
  {
  }

  lemma DotSymmetric(a: Vec3, b: Vec3)
    ensures Dot(a, b) == Dot(b, a)
  {
  }

  /** For unit, perpendicular `u` and `v`, `|u a + v b|^2 = a^2 + b^2`. */
  lemma SqNormPerpendicular(u: Vec3, a: real, v: Vec3, b: real)
    requires SqNorm(u) == 1.0 && SqNorm(v) == 1.0 && Dot(u, v) == 0.0
    ensures SqNorm(Add(Scale(u, a), Scale(v, b))) == a * a + b * b
  {
    SqNormAdd(Scale(u, a), Scale(v, b));
    SqNormScale(u, a);
    SqNormScale(v, b);
    DotScaleLeft(u, a, Scale(v, b));
    DotSymmetric(u, Scale(v, b));
    DotScaleLeft(v, b, u);
    DotSymmetric(v, u);
    assert Dot(Scale(u, a), Scale(v, b)) == a * (b * Dot(v, u));
  }

  /** The radial direction `right cos + up sin` is a unit vector perpendicular to forward. */
  lemma RadialDirection(cam: Camera, c: real, s: real)
    requires Orthonormal(cam.forward, cam.right, cam.up)
    requires c * c + s * s == 1.0
    ensures SqNorm(Add(Scale(cam.right, c), Scale(cam.up, s))) == 1.0
    ensures Dot(cam.forward, Add(Scale(cam.right, c), Scale(cam.up, s))) == 0.0
  {
    SqNormPerpendicular(cam.right, c, cam.up, s);
    DotAddRight(cam.forward, Scale(cam.right, c), Scale(cam.up, s));
    DotSymmetric(cam.forward, Scale(cam.right, c));
    DotScaleLeft(cam.right, c, cam.forward);
    DotSymmetric(cam.forward, Scale(cam.up, s));
    DotScaleLeft(cam.up, s, cam.forward);
    DotSymmetric(cam.right, cam.forward);
    DotSymmetric(cam.up, cam.forward);
  }

  lemma SplitSquare(radius: real, s: real, c: real)
    requires s * s + c * c == 1.0
    ensures (radius * c) * (radius * c) + (radius * s) * (radius * s) == radius * radius
  {
    assert (radius * c) * (radius * c) + (radius * s) * (radius * s) == radius * radius * (s * s + c * c);
  }

  lemma CentreAtRadius(cam: Camera, p: Placement)
    requires SqNorm(cam.forward) == 1.0
    ensures SqDist(CentrePosition(cam, p), cam.origin) == p.radius * p.radius
  {
    assert Sub(CentrePosition(cam, p), cam.origin) == Scale(cam.forward, p.radius);
    SqNormScale(cam.forward, p.radius);
  }

  /** Two steps from a point, measured back from that point. */
  lemma OffsetFromOrigin(o: Vec3, a: Vec3, b: Vec3)
    ensures Sub(Add(Add(o, a), b), o) == Add(a, b)
  {
  }

  lemma RingAtRadius(cam: Camera, p: Placement, trig: Trig, i: nat)
    requires i < RingSize
    requires Orthonormal(cam.forward, cam.right, cam.up)
    requires Pythagorean(trig)
    ensures SqDist(RingPosition(cam, p, trig, i), cam.origin) == p.radius * p.radius
  {
    var st, ct := trig.sinDeg(p.ringTiltDeg), trig.cosDeg(p.ringTiltDeg);
    var az := Azimuth(i);
    var sa, ca := trig.sinDeg(az), trig.cosDeg(az);
    var dir := Add(Scale(cam.right, ca), Scale(cam.up, sa));
    assert ca * ca + sa * sa == 1.0;
    RadialDirection(cam, ca, sa);
    var f := Scale(cam.forward, p.radius * ct);
    var radial := Scale(dir, p.radius * st);
    assert RingPosition(cam, p, trig, i) == Add(Add(cam.origin, f), radial);
    OffsetFromOrigin(cam.origin, f, radial);
    // forward and the radial direction are an orthonormal pair
    SqNormPerpendicular(cam.forward, p.radius * ct, dir, p.radius * st);
    SplitSquare(p.radius, st, ct);
  }

  /**
   * With an orthonormal camera basis and `sin^2 + cos^2 = 1`, every placed
   * target is `radius` from the camera.
   */
  lemma PlacedAtRadius(slots: seq<Vec3>, cam: Camera, p: Placement, trig: Trig)
    requires Orthonormal(cam.forward, cam.right, cam.up)
    requires Pythagorean(trig)
    requires |slots| >= SlotsNeeded
    ensures forall j :: 0 <= j < SlotsNeeded ==>
      SqDist(Arrange(slots, cam, p, trig).positions[j], cam.origin) == p.radius * p.radius
  {
    var r := Arrange(slots, cam, p, trig);
    forall j | 0 <= j < SlotsNeeded
      ensures SqDist(r.positions[j], cam.origin) == p.radius * p.radius
    {
      if j == 0 {
        CentreAtRadius(cam, p);
      } else {
        RingAtRadius(cam, p, trig, j - 1);
      }
    }
  }
}

=== FILE: walking_path.dfy ===
/**
 * The walking entity (`Assets/Walking_Path.cs`): it patrols the waypoints of
 * path A or path B, switches path when the user has looked at it for
 * `gazeThreshold` seconds, stops when the player bumps into it and walks on
 * once the player is more than `resumeDistance` away. One call of `Update`
 * is one frame.
 */
module WalkingPath {
  import opened Wrappers
  import opened Geometry

  /** A waypoint closer than this is reached. */
  const ReachedDistance: real := 0.3

  /** The inspector settings: `speed`, `gazeThreshold` and `resumeDistance`. */
  datatype Settings = Settings(speed: real, gazeThreshold: real, resumeDistance: real)

  /**
   * The component's state. Waypoints are the positions of the path
   * transforms; `currentPath` is whichever array the component holds.
   */
  datatype Walker = Walker(
    cfg: Settings,
    pathA: seq<Vec3>,
    pathB: seq<Vec3>,
    usingPathA: bool,
    currentPath: seq<Vec3>,
    targetPoint: int,
    shouldMove: bool,
    playerInContact: bool,
    gazeTimer: real,
    position: Vec3)

  /** The path `usingPathA` selects. */
  function Selected(w: Walker): seq<Vec3> {
    if w.usingPathA then w.pathA else w.pathB
  }

  /**
   * What holds between frames: the held path is the selected one, the
   * waypoint index is inside a non-empty path, the gaze timer has not reached
   * a positive threshold, and the entity is paused exactly while the player
   * is in contact.
   */
  ghost predicate Valid(w: Walker) {
    && w.currentPath == Selected(w)
    && (|w.currentPath| > 0 ==> 0 <= w.targetPoint < |w.currentPath|)
    && (0.0 < w.cfg.gazeThreshold ==> w.gazeTimer < w.cfg.gazeThreshold)
    && (w.shouldMove <==> !w.playerInContact)
  }

  /** Whether `Update` walks this frame: the early return is not taken. */
  predicate Moving(w: Walker) {
    w.shouldMove && |w.currentPath| > 0
  }

  /** Field initialisers and `Start`: path A, waypoint 0, moving, no contact, timer 0. */
  function Start(cfg: Settings, pathA: seq<Vec3>, pathB: seq<Vec3>, position: Vec3): (w: Walker)
    ensures Valid(w)
    ensures w.usingPathA && w.currentPath == pathA && w.targetPoint == 0
    ensures w.gazeTimer == 0.0 && !w.playerInContact && w.shouldMove && w.position == position
    ensures Moving(w) <==> |pathA| > 0
  {
    Walker(cfg, pathA, pathB, true, pathA, 0, true, false, 0.0, position)
  }

  /** Unity's integer `Mathf.Clamp`: below `lo` gives `lo`, else above `hi` gives `hi`. */
  function Clamp(v: int, lo: int, hi: int): (r: int)
    ensures lo <= hi ==> lo <= r <= hi
    ensures lo <= v <= hi ==> r == v
    ensures v < lo ==> r == lo
    ensures hi < v && lo <= v ==> r == hi
  {
    if v < lo then lo else if v > hi then hi else v
  }

  /**
   * `SwapPaths`: toggles the path and clamps the waypoint index into it: an
   * index past the new path's end becomes its last waypoint, and -1 becomes
   * 0. On an empty path the clamp range is [0, -1] and a non-negative index
   * becomes -1, which `Update` never uses because it returns early.
   */
  function SwapPaths(w: Walker): (r: Walker)
    requires Valid(w)
    ensures Valid(r)
    ensures r.usingPathA == !w.usingPathA
    ensures r.currentPath == (if r.usingPathA then w.pathA else w.pathB)
    ensures 0 <= w.targetPoint < |r.currentPath| ==> r.targetPoint == w.targetPoint
    ensures |r.currentPath| == 0 && 0 <= w.targetPoint ==> r.targetPoint == -1
    ensures 0 < |r.currentPath| <= w.targetPoint ==> r.targetPoint == |r.currentPath| - 1
    ensures w.targetPoint < 0 ==> r.targetPoint == 0
    ensures r == w.(usingPathA := r.usingPathA, currentPath := r.currentPath, targetPoint := r.targetPoint)
  {
    var usingA := !w.usingPathA;
    var newPath := if usingA then w.pathA else w.pathB;
    w.(usingPathA := usingA, targetPoint := Clamp(w.targetPoint, 0, |newPath| - 1), currentPath := newPath)
  }

  /** What the eye-camera ray reports this frame. */
  datatype Gaze =
    | NoCamera   // `eyeCamera` is not set
    | NoHit      // the ray hit nothing within 30 m
    | OnSelf     // the ray hit this entity's own transform
    | OnOther    // the ray hit something else

  /**
   * One frame's inputs: the gaze, `Time.deltaTime`, and the player's
   * position (None when no object tagged Player was found at start).
   */
  datatype Frame = Frame(gaze: Gaze, dt: real, player: Option<Vec3>)

  /**
   * The gaze block: looking at the entity accumulates time, and reaching the
   * threshold swaps the path and restarts the timer; looking elsewhere or at
   * nothing restarts the timer.
   */
  function GazeStep(w: Walker, g: Gaze, dt: real): (r: Walker)
    requires Valid(w)
    ensures Valid(r)
    ensures r.usingPathA != w.usingPathA <==> g.OnSelf? && w.gazeTimer + dt >= w.cfg.gazeThreshold
    ensures r.usingPathA == w.usingPathA ==> r.targetPoint == w.targetPoint
    ensures r.usingPathA != w.usingPathA ==> r == SwapPaths(w).(gazeTimer := 0.0)
    ensures g.NoCamera? ==> r.gazeTimer == w.gazeTimer
    ensures g.NoHit? || g.OnOther? ==> r.gazeTimer == 0.0
    ensures g.OnSelf? ==> r.gazeTimer == if r.usingPathA != w.usingPathA then 0.0 else w.gazeTimer + dt
    ensures r.shouldMove == w.shouldMove && r.playerInContact == w.playerInContact
    ensures r.position == w.position && r.cfg == w.cfg && r.pathA == w.pathA && r.pathB == w.pathB
  {
    match g
    case NoCamera => w
    case OnSelf =>
      var timer := w.gazeTimer + dt;
      if timer >= w.cfg.gazeThreshold then SwapPaths(w).(gazeTimer := 0.0)
      else w.(gazeTimer := timer)
    case _ => w.(gazeTimer := 0.0)
  }

  /** The pause check: a player found farther than `resumeDistance` ends the contact. */
  function Resume(w: Walker, player: Option<Vec3>, m: Math): (r: Walker)
    requires Valid(w)
    ensures Valid(r)
    ensures r.shouldMove != w.shouldMove ==>
      r.shouldMove && w.playerInContact && player.Some? && Distance(m, w.position, player.value) > w.cfg.resumeDistance
    ensures w.playerInContact && player.Some? && Distance(m, w.position, player.value) > w.cfg.resumeDistance ==>
      r.shouldMove
    ensures r == w.(shouldMove := r.shouldMove, playerInContact := r.playerInContact)
  {
    if w.playerInContact && player.Some? && Distance(m, w.position, player.value) > w.cfg.resumeDistance then
      w.(shouldMove := true, playerInContact := false)
    else w
  }

  /**
   * `Vector3.MoveTowards`: the target itself when it is within `maxDelta`
   * (or already reached); otherwise a step of `maxDelta` along the way.
   */
  function MoveTowards(m: Math, current: Vec3, target: Vec3, maxDelta: real): Vec3
    requires LawfulMath(m)
  {
    var toVector := Sub(target, current);
    var sqdist := SqNorm(toVector);
    if sqdist == 0.0 || (0.0 <= maxDelta && sqdist <= maxDelta * maxDelta) then target
    else
      var dist := m.sqrt(sqdist);
      assert 0.0 < dist by {
        SqNormNonNegative(toVector);
      }
      Add(current, Scale(Div(toVector, dist), maxDelta))
  }

  lemma SquareAtMostOne(q: real)
    requires -1.0 <= q <= 0.0
    ensures q * q <= 1.0
  {
    SquareMonotone(-q, 1.0);
  }

  /** Scaling by a factor in [-1, 0] does not lengthen a vector. */
  lemma ScaleShrinks(v: Vec3, q: real)
    requires -1.0 <= q <= 0.0
    ensures SqNorm(Scale(v, q)) <= SqNorm(v)
  {
    SqNormScale(v, q);
    SqNormNonNegative(v);
    SquareAtMostOne(q);
    MulMonotone(SqNorm(v), q * q, 1.0);
  }

  /** The fraction `d / dist` of the way a step covers, when the target is out of reach. */
  lemma StepRatio(d: real, dist: real)
    requires 0.0 <= d < dist
    ensures 0.0 <= d / dist < 1.0
    ensures (d / dist) * (d / dist) * (dist * dist) == d * d
  {
    var k := d / dist;
    assert k * dist == d;
    if k < 0.0 {
      MulStrict(dist, 0.0, k);
    }
    if 1.0 <= k {
      MulMonotone(dist, 1.0, k);
    }
    assert k * k * (dist * dist) == (k * dist) * (k * dist);
  }

  /** Where a step of fraction `k` along `target - current` lands, relative to both ends. */
  lemma StepOffsets(current: Vec3, target: Vec3, k: real)
    ensures Sub(Add(current, Scale(Sub(target, current), k)), current) == Scale(Sub(target, current), k)
    ensures Sub(Add(current, Scale(Sub(target, current), k)), target) == Scale(Sub(target, current), k - 1.0)
  {
  }

  /** A step of fraction `k` in [0, 1] along `target - current` gets no farther from the target. */
  lemma PartialStepCloser(current: Vec3, target: Vec3, k: real)
    requires 0.0 <= k <= 1.0
    ensures SqDist(Add(current, Scale(Sub(target, current), k)), target) <= SqNorm(Sub(target, current))
  {
    var toVector := Sub(target, current);
    var sq := SqNorm(toVector);
    SqNormNonNegative(toVector);
    var r := Add(current, Scale(toVector, k));
    StepOffsets(current, target, k);
    ScaleShrinks(toVector, k - 1.0);
  }

  /** A step of fraction `d / dist` along a vector of length `dist` has length `d`. */
  lemma PartialStepLength(current: Vec3, target: Vec3, d: real, dist: real)
    requires 0.0 <= d < dist
    requires dist * dist == SqNorm(Sub(target, current))
    ensures SqDist(Add(current, Scale(Sub(target, current), d / dist)), current) == d * d
  {
    var toVector := Sub(target, current);
    StepRatio(d, dist);
    StepOffsets(current, target, d / dist);
    SqNormScale(toVector, d / dist);
  }

  /**
   * Out of reach, `MoveTowards` covers the fraction `maxDelta / dist` of the
   * way, `dist` being the distance to the target.
   */
  lemma MoveTowardsFraction(m: Math, current: Vec3, target: Vec3, maxDelta: real) returns (dist: real)
    requires LawfulMath(m) && 0.0 <= maxDelta
    requires maxDelta * maxDelta < SqNorm(Sub(target, current))
    ensures 0.0 <= maxDelta < dist && dist * dist == SqNorm(Sub(target, current))
    ensures MoveTowards(m, current, target, maxDelta) == Add(current, Scale(Sub(target, current), maxDelta / dist))
  {
    var toVector := Sub(target, current);
    var sq := SqNorm(toVector);
    MulMonotone(maxDelta, 0.0, maxDelta);
    dist := m.sqrt(sq);
    assert dist * dist == sq;
    SqrtAtMost(m, sq, maxDelta);
    var k := 1.0 / dist;
    assert k * maxDelta == maxDelta / dist by {
      assert k * dist == 1.0;
      assert (k * maxDelta) * dist == maxDelta;
    }
    assert Scale(Div(toVector, dist), maxDelta) == Scale(toVector, maxDelta / dist) by {
      DivIsScale(toVector, dist);
      ScaleProduct(toVector, k, maxDelta);
    }
    assert MoveTowards(m, current, target, maxDelta) == Add(current, Scale(Div(toVector, dist), maxDelta));
  }

  /**
   * A non-negative step never moves away from the target: it lands on the
   * target when within reach, and otherwise covers exactly `maxDelta`.
   */
  lemma MoveTowardsApproaches(m: Math, current: Vec3, target: Vec3, maxDelta: real)
    requires LawfulMath(m) && 0.0 <= maxDelta
    ensures SqDist(MoveTowards(m, current, target, maxDelta), target) <= SqDist(current, target)
    ensures SqDist(current, target) <= maxDelta * maxDelta ==> MoveTowards(m, current, target, maxDelta) == target
    ensures maxDelta * maxDelta < SqDist(current, target) ==>
      SqDist(MoveTowards(m, current, target, maxDelta), current) == maxDelta * maxDelta
  {
    var toVector := Sub(target, current);
    var sq := SqNorm(toVector);
    SqNormNonNegative(toVector);
    SqDistSymmetric(current, target);
    assert SqDist(current, target) == sq;
    if sq <= maxDelta * maxDelta {
      assert MoveTowards(m, current, target, maxDelta) == target;
      assert Sub(target, target) == Zero;
    } else {
      var dist := MoveTowardsFraction(m, current, target, maxDelta);
      StepRatio(maxDelta, dist);
      PartialStepCloser(current, target, maxDelta / dist);
      PartialStepLength(current, target, maxDelta, dist);
    }
  }

  /**
   * The walking part of a frame: step towards the current waypoint at
   * `speed * dt`, and move on to the next waypoint (wrapping round) once
   * within `ReachedDistance` of it.
   */
  function Walk(w: Walker, dt: real, m: Math): (r: Walker)
    requires Valid(w) && Moving(w) && LawfulMath(m)
    ensures Valid(r)
    ensures r == w.(position := r.position, targetPoint := r.targetPoint)
    ensures r.position == MoveTowards(m, w.position, w.currentPath[w.targetPoint], w.cfg.speed * dt)
    ensures 0.0 <= w.cfg.speed * dt ==>
      SqDist(r.position, w.currentPath[w.targetPoint]) <= SqDist(w.position, w.currentPath[w.targetPoint])
    ensures r.targetPoint == w.targetPoint || r.targetPoint == (w.targetPoint + 1) % |w.currentPath|
    ensures r.targetPoint != w.targetPoint ==> Distance(m, r.position, w.currentPath[w.targetPoint]) < ReachedDistance
    ensures Distance(m, r.position, w.currentPath[w.targetPoint]) < ReachedDistance && 1 < |w.currentPath| ==>
      r.targetPoint != w.targetPoint
  {
    var goal := w.currentPath[w.targetPoint];
    var step := w.cfg.speed * dt;
    var pos := MoveTowards(m, w.position, goal, step);
    assert 0.0 <= step ==> SqDist(pos, goal) <= SqDist(w.position, goal) by {
      if 0.0 <= step {
        MoveTowardsApproaches(m, w.position, goal, step);
      }
    }
    if Distance(m, pos, goal) < ReachedDistance then
      w.(position := pos, targetPoint := (w.targetPoint + 1) % |w.currentPath|)
    else
      w.(position := pos)
  }

  /** What one call writes to the Animator's MoveSpeed (None: nothing written). */
  datatype Step = Step(walker: Walker, moveSpeed: Option<real>)

  /**
   * `Update`: the gaze block, then the pause check, then either idle (MoveSpeed
   * 0, nothing moves) or a walking step at `speed`. Rotation is not modelled.
   */
  function Update(w: Walker, f: Frame, m: Math): (r: Step)
    requires Valid(w) && LawfulMath(m)
    ensures Valid(r.walker)
    ensures r.walker.cfg == w.cfg && r.walker.pathA == w.pathA && r.walker.pathB == w.pathB
    ensures r.walker.usingPathA != w.usingPathA <==> f.gaze.OnSelf? && w.gazeTimer + f.dt >= w.cfg.gazeThreshold
    ensures f.gaze.NoCamera? ==> r.walker.gazeTimer == w.gazeTimer
    ensures f.gaze.NoHit? || f.gaze.OnOther? ==> r.walker.gazeTimer == 0.0
    ensures r.walker.playerInContact ==> w.playerInContact
    ensures !w.shouldMove && r.walker.shouldMove ==>
      f.player.Some? && Distance(m, w.position, f.player.value) > w.cfg.resumeDistance
    ensures w.playerInContact && f.player.Some? && Distance(m, w.position, f.player.value) > w.cfg.resumeDistance ==>
      r.walker.shouldMove
    ensures r.moveSpeed == Some(if Moving(r.walker) then w.cfg.speed else 0.0)
    ensures !Moving(r.walker) ==> r.walker.position == w.position
    ensures !Moving(r.walker) && r.walker.usingPathA == w.usingPathA ==> r.walker.targetPoint == w.targetPoint
    ensures var c := Resume(GazeStep(w, f.gaze, f.dt), f.player, m);
      Moving(c) ==>
        && r.walker == Walk(c, f.dt, m)
        && (0.0 <= w.cfg.speed * f.dt ==>
              SqDist(r.walker.position, c.currentPath[c.targetPoint]) <= SqDist(w.position, c.currentPath[c.targetPoint]))
        && (r.walker.targetPoint == c.targetPoint || r.walker.targetPoint == (c.targetPoint + 1) % |c.currentPath|)
  {
    var looked := GazeStep(w, f.gaze, f.dt);
    var checked := Resume(looked, f.player, m);
    if !Moving(checked) then Step(checked, Some(0.0))
    else Step(Walk(checked, f.dt, m), Some(w.cfg.speed))
  }

  /** `OnCollisionEnter`: a collision with the player pauses the entity and idles its animation. */
  function OnCollisionEnter(w: Walker, withPlayer: bool): (r: Step)
    requires Valid(w)
    ensures Valid(r.walker)
    ensures withPlayer ==> !r.walker.shouldMove && r.walker.playerInContact && !Moving(r.walker)
    ensures withPlayer ==> r.moveSpeed == Some(0.0)
    ensures !withPlayer ==> r == Step(w, None)
    ensures r.walker.position == w.position && r.walker.targetPoint == w.targetPoint
  {
    if withPlayer then Step(w.(shouldMove := false, playerInContact := true), Some(0.0))
    else Step(w, None)
  }

  /** The state after a sequence of frames. */
  function Run(w: Walker, frames: seq<Frame>, m: Math): (r: Walker)
    requires Valid(w) && LawfulMath(m)
    ensures Valid(r)
    decreases |frames|
  {
    if |frames| == 0 then w else Run(Update(w, frames[0], m).walker, frames[1..], m)
  }

  /**
   * Once the player has bumped into it, the entity stays where it is for as
   * long as the player, when found at all, stays within `resumeDistance`.
   */
  lemma {:induction false} PausedWhilePlayerNear(w: Walker, frames: seq<Frame>, m: Math)
    requires Valid(w) && LawfulMath(m)
    requires w.playerInContact
    requires forall i :: 0 <= i < |frames| && frames[i].player.Some? ==>
      Distance(m, w.position, frames[i].player.value) <= w.cfg.resumeDistance
    ensures Run(w, frames, m).position == w.position
    ensures Run(w, frames, m).playerInContact
    decreases |frames|
  {
    if |frames| > 0 {
      var next := Update(w, frames[0], m).walker;
      assert next.position == w.position && next.playerInContact;
      forall i | 0 <= i < |frames[1..]| && frames[1..][i].player.Some?
        ensures Distance(m, next.position, frames[1..][i].player.value) <= next.cfg.resumeDistance
      {
        assert frames[1..][i] == frames[i + 1];
      }
      PausedWhilePlayerNear(next, frames[1..], m);
    }
  }

  /**
   * Looking away, or at nothing, throws the accumulated gaze time away: a
   * switch needs `gazeThreshold` seconds of uninterrupted looking.
   */
  lemma GazeBrokenResetsTimer(w: Walker, f: Frame, m: Math)
    requires Valid(w) && LawfulMath(m)
    requires f.gaze.NoHit? || f.gaze.OnOther?
    ensures Update(w, f, m).walker.gazeTimer == 0.0
    ensures Update(w, f, m).walker.usingPathA == w.usingPathA
  {
  }
}

=== FILE: wrappers.dfy ===
/** Optional values: stands for C#'s null / float.NaN and Python's None. */
module Wrappers {

  datatype Option<+T> = None | Some(value: T) {

    /** Returns the value in Some, or `default` when None. */
    function GetOr(default: T): T {
      match this
      case Some(v) => v
      case None => default
    }
  }
}
